=== FILE: README.md ===
# Guess the Painter — a Dafny model of the game logic

Guess the Painter is a browser trivia game: a random painting is shown, the
player has 30 seconds to type the painter's name, and each guess is recorded
against the player's account (total paintings, guesses, correct and wrong
guesses, a score worth 10 per correct guess, and a rank by score). This
project models the sequential logic under the user interface as pure Dafny
functions over immutable records and proves properties of it:

- `Round` (round.dfy): the `Game` component's state and every event it
  handles — new painting, painting fetched, image loaded, one-second tick,
  timer effect, time-up, guess typed, guess submitted, feedback timeout,
  login, logout, mount — as step functions returning the new state and the
  remote stats calls issued (`Effect`). Replies of the calls a handler
  awaits are inputs of that step, and so are the replies of two calls the
  code does not await but handles in a `.then` (the stats read on mount and
  the update issued at time-up): the model applies them in the same step,
  before any later event.
- `Storage` (storage.dfy): the browser-local account store: upsert by
  username, password check, counters for the signed-in user, and the
  all-zero default when nobody is signed in.
- `RemoteStats`, `Leaderboard`, `Accounts` (remote.dfy, leaderboard.dfy,
  accounts.dfy): the remote service's tables as sequences of rows and the
  computations the client performs around each query: new counter values,
  rank as one plus the number of strictly higher scores, the `|| 0`
  mapping, the top-ten leaderboard with positional ranks and the
  `Unknown User` fallback, registration with rollback, and login.
- `TimerSound` (timer.dfy): the `Timer` component's decision table from
  (seconds, active) to sound actions and the time-up callback.
- `Sounds` (sounds.dfy): the sound manager's mute flag, tick-loop reference
  and per-sound audio elements, abstracted to (playing, position, volume).
- `LoginForm` (login.dfy): the sign-in form's validation and
  login-then-register flow with the two service calls as oracles.
- `Text` and `Types` (text.dfy, types.dfy): JavaScript `trim` and
  lower-casing, and the shared records of src/types.ts.
- `Scenarios` (scenarios.dfy): properties spanning several components,
  such as a wrong then a right guess as the service records them.

Some behaviours of the code that the model keeps as written:

- The paintings counter is bumped when the painting fetch completes, not
  when the image has loaded (`Round.ReceivePainting`).
- A new painting does not reset `isTimerActive` (`Round.LoadNewPainting`).
- Nothing tags a painting request with its round, so a late answer to an
  earlier request is applied like any other (`Round.ReceivePainting` takes
  whatever arrives); a returning user's mount even issues two requests
  (`Round.Mount`).
- Time-up is not guarded and can run several times per round (see Findings).
- The two-second clear of the wrong-guess message is never cancelled and
  clears whatever feedback is showing (see Findings).
- A guess is compared untrimmed, so trailing spaces make it wrong.

## Model

| member | source | states |
|---|---|---|
| Text.TrimEmptyIffBlank | src/components/Game.tsx:124 | `s.trim()` is empty exactly when every character of `s` is JavaScript whitespace, so `!s.trim()` is the blank-input test |
| Text.TrimStart | src/components/Login.tsx:20 | trimming the front removes a whitespace-only prefix and leaves a string that is empty or starts with a non-space |
| Text.TrimEnd | src/components/Login.tsx:20 | trimming the back removes a whitespace-only suffix and leaves a string that is empty or ends with a non-space |
| Text.Trim | src/components/Game.tsx:124 | `s.trim()` is the contiguous middle of `s` left after removing a whitespace-only prefix and a whitespace-only suffix, and it is empty or begins and ends with a non-whitespace character |
| Text.TrimsToNothing | src/components/Login.tsx:20 | the `!s.trim()` test is true exactly when every character of `s` is whitespace |
| Text.Lower | src/components/Game.tsx:126 | lower-casing keeps the length and lowers each character on its own |
| Text.SameIgnoringCaseIff | src/components/Game.tsx:126 | a guess matches exactly when it has the artist's length and agrees with it letter by letter up to case; no partial name is accepted |
| Storage.FindIndex | src/utils/storage.ts:35 | the index returned is that of the first account with the name, and none is returned exactly when no account has it |
| Storage.Find | src/utils/storage.ts:48 | finds the first account with the name, present exactly when one exists |
| Storage.SaveUser | src/utils/storage.ts:33-44 | upsert: grows by one exactly when the name is new, otherwise the first same-named account's slot holds the saved record; every other entry is unchanged; looking the name up afterwards yields the saved record |
| Storage.SaveUserKeepsNamesUnique | src/utils/storage.ts:33-44 | saving never creates a second account with the same username |
| Storage.Authenticate | src/utils/storage.ts:46-50 | true exactly when the first account with that name exists and its password equals the one given |
| Storage.GetGameStats | src/utils/storage.ts:52-59 | the signed-in user's stored counters; all zero when nobody is signed in or the account is not stored |
| Storage.CountGuess | src/utils/storage.ts:66-72 | one guess: total guesses +1, exactly one of correct/wrong +1, score +10 iff correct, paintings and rank unchanged |
| Storage.UpdateGameStats | src/utils/storage.ts:61-80 | with nobody signed in returns the zero counters and writes nothing; otherwise counts the guess on the stored counters and upserts them for the current user |
| Storage.IncrementTotalPaintings | src/utils/storage.ts:82-98 | with nobody signed in writes nothing; otherwise only `totalPaintings` moves, by one, and the result is upserted for the current user, every other account kept |
| Storage.UpdateThenRead | src/utils/storage.ts:52-80 | the counters an update returns are what the next read finds |
| Storage.IncrementThenRead | src/utils/storage.ts:82-98 | the counters the paintings increment returns are what the next read finds |
| Storage.CountGuessConserves | src/utils/storage.ts:66-72 | counting a guess keeps `totalGuesses - (correct + wrong)` fixed and never lowers the score |
| Storage.UpdatesConserve | src/utils/storage.ts:61-80 | over any sequence of updates the stored score never decreases and `totalGuesses - (correct + wrong)` is preserved |
| Storage.SetCurrentUser | src/utils/storage.ts:20-22 | signing in changes only the current user |
| Storage.ClearCurrentUser | src/utils/storage.ts:24-26 | signing out keeps the accounts and makes every counter read return the defaults |
| RemoteStats.NumOf | src/utils/supabase.ts:148-152 | a NULL counter reads as 0, any other value as itself |
| RemoteStats.RowsOf | src/utils/supabase.ts:164-168 | the rows selected by user id are exactly the table's rows with that id |
| RemoteStats.FetchRow | src/utils/supabase.ts:164-170 | `.single()`: a row comes back exactly when the user has one row, and it is that row; none or several rows give nothing |
| RemoteStats.UpdateWhere | src/utils/supabase.ts:181-186 | the update rewrites exactly the rows of that user, keeping positions and every other row |
| RemoteStats.GuessCounters | src/utils/supabase.ts:173-178 | the new values: total guesses +1, exactly one of correct/wrong +1, score +10 iff correct, paintings untouched |
| RemoteStats.PaintingCounters | src/utils/supabase.ts:226 | only `total_paintings` changes, by one |
| RemoteStats.CountAbove | src/utils/supabase.ts:142-145 | the count of rows scoring strictly more never exceeds the table size |
| RemoteStats.Rank | src/utils/supabase.ts:142-153 | the rank is at least 1 and at most one more than the number of rows |
| RemoteStats.TopScoreRanksFirst | src/utils/supabase.ts:142-153 | a score no row exceeds has rank 1 |
| RemoteStats.RankMonotone | src/utils/supabase.ts:193-204 | a higher score never gets a worse rank, so equal scores share a rank |
| RemoteStats.RankWithinTable | src/utils/supabase.ts:193-204 | the rank of a score held by some row is at most the number of rows |
| RemoteStats.ToGameStats | src/utils/supabase.ts:198-205 | each returned counter is the row's value with NULL read as 0, plus the given rank |
| RemoteStats.GetUserStats | src/utils/supabase.ts:129-159 | null exactly when the row cannot be read; otherwise the row's counters with rank one more than the rows scoring strictly more |
| RemoteStats.WriteAndReport | src/utils/supabase.ts:180-205 | the user's rows are overwritten and every other row kept; the report carries the written counters and one plus the number of rows scoring more in the table as written; when the user had a single row, a later read returns exactly the report |
| RemoteStats.UpdateUserStats | src/utils/supabase.ts:161-210 | a failed read returns null and writes nothing; otherwise the returned counters are the read ones with total +1, exactly one of correct/wrong +1, score +10 iff correct, paintings unchanged, rank one plus the rows scoring more after the write; the user's row holds the new counters, other users' rows are untouched, and a later read returns the reply |
| RemoteStats.IncrementTotalPaintings | src/utils/supabase.ts:212-252 | a failed read returns null and writes nothing; otherwise the user's row is rewritten with only the paintings counter moved, by one, other users' rows are untouched, the rank is one plus the rows scoring more after the write, and a later read returns the reply |
| RemoteStats.UpdateThenRead | src/utils/supabase.ts:161-210 | after a successful update the next read returns exactly the counters the update returned |
| RemoteStats.UpdateKeepsSingleRow | src/utils/supabase.ts:181-186 | updating a user's single row leaves that user with exactly the written row |
| Leaderboard.Insert | src/utils/supabase.ts:267 | inserting into a score-descending list keeps it descending and adds exactly that row |
| Leaderboard.OrderByScore | src/utils/supabase.ts:267 | `order('score', descending)` returns a permutation of the table in non-increasing score order |
| Leaderboard.TopStats | src/utils/supabase.ts:257-268 | the first ten rows: ten or the whole table if smaller, sorted, drawn from the table, and every row left out scores no more than every row kept |
| Leaderboard.RowsWithIds | src/utils/supabase.ts:275-278 | the account rows fetched are exactly those whose id was asked for |
| Leaderboard.UsernameMap | src/utils/supabase.ts:284 | the id-to-name map has exactly the fetched ids, each mapped to the name of a row with that id |
| Leaderboard.NameOrUnknown | src/utils/supabase.ts:288 | the mapped name exactly when the id is mapped to a non-empty name, otherwise `Unknown User` |
| Leaderboard.GetLeaderboard | src/utils/supabase.ts:254-300 | at most ten entries, scores non-increasing, rank = position + 1 (distinct even on ties), each carrying the counters of its stats row and named after an account with that row's user id or `Unknown User` |
| Leaderboard.UnmatchedIsUnknown | src/utils/supabase.ts:284-288 | an entry whose user id matches no account shows `Unknown User` |
| Leaderboard.MatchedShowsName | src/utils/supabase.ts:284-288 | an entry whose user id matches exactly one account with a non-empty name shows that name |
| Leaderboard.PositionalRankAtLeastScoreRank | src/utils/supabase.ts:287-295 | the positional rank is never better than the count-based rank of the same score |
| Leaderboard.OrderKeepsCount | src/utils/supabase.ts:267 | sorting the table does not change how many rows score above any value |
| Accounts.Named | src/utils/supabase.ts:80-84 | the rows selected by username are exactly the table's rows with that name |
| Accounts.SingleNamed | src/utils/supabase.ts:80-86 | `.single()` yields a row exactly when one row has the name |
| Accounts.DeleteId | src/utils/supabase.ts:115 | deleting by id keeps exactly the rows with another id |
| Accounts.RegisterUser | src/utils/supabase.ts:77-127 | when exactly one account already has the name (the `.single()` existence check) it returns null and writes nothing; a failed account insert writes nothing; success appends the account and an all-zero stats row; a failed stats insert leaves the stats table unchanged and returns null |
| Accounts.RollbackRestores | src/utils/supabase.ts:112-117 | when the stats insert fails, deleting the new account leaves the users table exactly as before |
| Accounts.LoginUser | src/utils/supabase.ts:45-75 | a user comes back exactly when one account has the name and the password check accepts its stored hash |
| Accounts.RegisteredCanLogIn | src/utils/supabase.ts:77-122 | a newly registered name can then log in with a password the check accepts |
| Round.Mirror | src/components/Game.tsx:139-141 | a null reply keeps the shown stats; a reply replaces them |
| Round.LoadNewPainting | src/components/Game.tsx:53-61 | resets loading, feedback, guess, clock to 30 and painting to none, requests a painting, and leaves the timer flag and stats alone |
| Round.ReceivePainting | src/components/Game.tsx:62-80 | a failed fetch changes nothing; otherwise the painting is shown and a signed-in user gets exactly one paintings-counter call whose non-null reply replaces the stats |
| Round.HandleImageLoad | src/components/Game.tsx:83-86 | image load clears the loading flag and starts the clock, nothing else |
| Round.TimerTick | src/components/Game.tsx:92-95 | a tick takes exactly one second off a positive running clock and otherwise changes nothing, so the clock never goes below 0 |
| Round.HandleTimeUp | src/components/Game.tsx:102-121 | stops the clock and, when a painting is shown and a user signed in, issues one non-correct stats update |
| Round.RunTimerEffect | src/components/Game.tsx:92-100 | the effect only calls the time-up handler when the clock reads 0 |
| Round.SetGuess | src/components/Game.tsx:312 | typing changes only the guess text |
| Round.GuessIgnored | src/components/Game.tsx:124 | a submission is ignored exactly when there is no painting, the clock is stopped, or the guess trims to the empty string |
| Round.GuessMatches | src/components/Game.tsx:126 | a guess matches exactly when it has the artist's length and agrees with it character by character after lower-casing; untrimmed |
| Round.InputDisabled | src/components/Game.tsx:314 | the guess box is disabled when the clock reads 0, the image is loading, or the guess was correct |
| Round.ShowNext | src/components/Game.tsx:318 | "Next Painting" is shown when the guess was correct or the clock reads 0 |
| Round.HandleGuess | src/components/Game.tsx:123-156 | no painting, stopped clock or blank input: no call, no change; otherwise one stats update carrying the case-insensitive whole-string verdict for a signed-in user; correct sets feedback and stops the clock keeping the text; wrong sets feedback, clears the text and keeps the clock |
| Round.ClearFeedback | src/components/Game.tsx:153-154 | the delayed clear empties the feedback whatever it is |
| Round.HandleLogin | src/components/Game.tsx:158-182 | login stores the user, shows the stats reply when one arrives, then starts a new painting: one stats read and one fetch, image loading, guess and feedback emptied, clock back to 30, timer flag kept |
| Round.HandleLogout | src/components/Game.tsx:184-199 | logout forgets the user and zeroes all six counters, leaving the round fields as they were |
| Round.Mount | src/components/Game.tsx:36-90 | mounting requests one painting, or a stats read and two paintings for a stored user; the stats shown are the read's reply when it is non-null and the zero counters otherwise; no painting, guess or feedback yet, clock at 30 and stopped |
| Round.ApplyKeepsClock | src/components/Game.tsx:92-100 | no event moves the clock outside [0, 30], and it only loses time, one second, while running |
| Round.RunKeepsClock | src/components/Game.tsx:92-100 | the clock stays in [0, 30] along any sequence of events |
| Round.ApplyUpdatesAtMostOnce | src/components/Game.tsx:136-142 | every single event issues at most one stats update |
| Round.TicksCountDown | src/components/Game.tsx:94-95 | n ticks of a running clock leave max(0, t - n) |
| Round.ThirtyTicksEndRound | src/components/Game.tsx:94-97 | from 30, after every n < 30 ticks the clock is positive and the timer effect does nothing; after 30 ticks it reads 0 |
| Round.CorrectGuessResolves | src/components/Game.tsx:144-148 | after a correct guess the input is disabled, "Next Painting" shows, the clock is frozen and further guesses are ignored |
| Round.MatchingExamples | src/components/Game.tsx:126 | "CLAUDE MONET" matches Claude Monet; "monet", "van gogh" and a guess with a trailing space do not match |
| Round.TimeoutIssuesThreeUpdates | src/components/Game.tsx:92-121 | as written, one timeout runs the time-up handler three times and issues three non-correct updates |
| Round.ResolveTimeUp | src/components/Game.tsx:102-121 | corrected handler: a stopped clock is left alone, a running one is resolved |
| Round.ResolveTimeUpOnce | src/components/Game.tsx:102-121 | with the corrected handler, however often time-up fires, at most one update is issued |
| Round.UpdatesAppend | src/components/Game.tsx:114 | update calls of two runs add up |
| Round.LateClearStrandsRound | src/components/Game.tsx:149-154 | as written, a wrong then a right guess within two seconds ends with no feedback, no "Next Painting", a stopped clock above zero, and every guess ignored |
| Round.ClearWrongGuessFeedback | src/components/Game.tsx:153-154 | corrected clear: removes only the wrong-guess message |
| Round.CorrectedClearKeepsNext | src/components/Game.tsx:318 | with the corrected clear, "Next Painting" stays offered once shown |
| TimerSound.Decide | src/components/Timer.tsx:13-32 | start the loop iff active at 30; stop it iff inactive or at most 10; last tick iff active and 1..10; time-up iff seconds is 0, whatever the activity |
| TimerSound.Cleanup | src/components/Timer.tsx:34-38 | the cleanup stops the loop exactly after an inactive run |
| TimerSound.MidRoundSilent | src/components/Timer.tsx:14-24 | active between 11 and 29 seconds makes no call |
| TimerSound.StartAndStopExclusive | src/components/Timer.tsx:14-28 | no run both starts and stops the loop |
| TimerSound.Perform | src/components/Timer.tsx:14-28 | a run that is inactive or at most 10 seconds drops the loop reference and pauses and rewinds the tick element if it was looping; an unmuted active run at 30 restarts the tick element from 0 as the loop; no run touches any other shared element |
| Sounds.EverySoundListed | src/utils/sounds.ts:2-9 | the six sound keys are all the sounds there are |
| Sounds.Construct | src/utils/sounds.ts:17-33 | every element idle at volume 0.3, only the tick looping, the loop reference set to the tick, unmuted |
| Sounds.StopTickLoop | src/utils/sounds.ts:56-62 | the loop reference is dropped and the element it named is paused and rewound; nothing else changes |
| Sounds.StopTickLoopIdempotent | src/utils/sounds.ts:56-62 | stopping twice equals stopping once |
| Sounds.StartTickLoop | src/utils/sounds.ts:42-54 | muted: no change; unmuted: the tick element becomes the loop, rewound to 0 and playing, other elements untouched |
| Sounds.StopAllSounds | src/utils/sounds.ts:64-69 | every element paused and rewound; the loop reference and mute flag kept |
| Sounds.PlaySound | src/utils/sounds.ts:71-86 | muted: no change; the last tick plays on a fresh element leaving the shared ones alone; any other sound rewinds and plays its shared element |
| Sounds.ToggleMute | src/utils/sounds.ts:88-94 | flips and returns the flag; muting does exactly `stopTickLoop` on the muted manager, so a looping tick element is paused and rewound and nothing else changes; unmuting changes only the flag |
| Sounds.ToggleTwice | src/utils/sounds.ts:88-98 | toggling twice restores the original mute flag |
| Sounds.MutedIsSilent | src/utils/sounds.ts:42-72 | while muted neither a sound nor the tick loop starts |
| Sounds.MutedStaysQuiet | src/utils/sounds.ts:42-86 | a muted manager is unchanged by any sequence of sound calls and tick-loop starts |
| Sounds.Clamp | src/utils/sounds.ts:101 | the volume is clamped into [0, 1] and kept when already inside |
| Sounds.SetVolume | src/utils/sounds.ts:100-105 | every element gets the clamped volume and nothing else changes |
| LoginForm.HandleSubmit | src/components/Login.tsx:15-46 | error cleared and spinner on first; a blank field gives "Please fill in all fields" and no call; else login with the untrimmed inputs, register only when login returned nothing, `onLogin` with the result or "Failed to login or register"; spinner off at the end |
| LoginForm.SignedInIffReply | src/components/Login.tsx:28-39 | a user is handed on exactly when a call returned one, and no registration follows a successful login |
| LoginForm.WhitespaceIsMissing | src/components/Login.tsx:20-24 | a username or password of any whitespace-only text is rejected exactly like an empty one, with no service call |
| Scenarios.UpdateKeepsRow | src/utils/supabase.ts:161-210 | a user's row stays readable after it is updated |
| Scenarios.ReadAfterUpdate | src/utils/supabase.ts:161-210 | after an update the next read shows one more guess, one more wrong guess iff the update was not correct |
| Scenarios.WrongThenRight | src/components/Game.tsx:123-156 | a wrong then a right guess recorded by the service: the round ends correct, the shown score rises by exactly 10 and the guesses by two, one of each kind |
| Scenarios.StarryNight | src/components/Game.tsx:126 | "van gogh" is judged wrong for Vincent van Gogh, the full name then ends the round correct and the score grows by 10 |
| Scenarios.TimeoutRecordsThreeWrongGuesses | src/components/Timer.tsx:30-32 | the Timer reports time-up at 0 whatever its activity; if the service handles the three resulting updates one after another, three wrong guesses are recorded |
| Scenarios.OverlappingUpdatesLoseOne | src/utils/supabase.ts:164-186 | two updates whose reads both precede either write record only one wrong guess: the second write overwrites the first |
| Scenarios.FirstVisitRegisters | src/components/Login.tsx:26-39 | a new name: login finds nothing, registration creates the account, and the form hands the new user on after exactly two calls |

## Findings

| source | as written | input that shows it | evidently intended | confidence | as-written member | corrected member |
|---|---|---|---|---|---|---|
| src/components/Game.tsx:92-121 | `handleTimeUp` has no guard; the `Timer` child calls it at 0 and the game's timer effect calls it at 0 and again when `isTimerActive` flips to false | a signed-in player lets the clock run out on a shown painting | one non-correct stats update per round that times out | medium, not executed (depends on React running the child effect, the parent effect, then the re-run) | `Round.TimeoutIssuesThreeUpdates` | `Round.ResolveTimeUpOnce` |
| src/components/Game.tsx:149-154 | the two-second timeout after a wrong guess sets feedback to null unconditionally and is never cancelled | a wrong guess, then the right name within two seconds | only the wrong-guess message is cleared, so a solved round keeps its "Next Painting" button | high, not executed | `Round.LateClearStrandsRound` | `Round.CorrectedClearKeepsNext` |

The step functions of `Round` and its event dispatcher `Round.Apply` model
the code as written, so the properties about rounds describe the game as it
behaves today; the corrected members `Round.ResolveTimeUp` and
`Round.ClearWrongGuessFeedback` state the fixes and carry the intended
properties.

## Left out

- Rendering and layout (the JSX of Game.tsx and the presentational
  components), analytics events and console logging: no behaviour to state.
- The painting source (src/utils/wikidata.ts) is an input: a painting or a
  failure; its random choice and network request are not modelled.
- localStorage and JSON (de)serialisation are in-memory records; a corrupt
  stored value is not modelled.
- The service client, network failures other than a missing row, and
  password encryption: tables are sequences of rows, the stored hash is an
  input and the password check a caller-supplied predicate.
- Wall-clock time and asynchronous interleaving: ticks and the feedback
  timeout are discrete events, and each handler receives the replies of the
  calls it awaits, and of the `.then` callbacks at mount and time-up, in the
  same step. A `.then` reply that lands after a later event (a mount stats
  read arriving after a login, say) is not modelled. Of the interleavings of concurrent
  `updateUserStats` calls, only the two extremes are modelled (fully one
  after another, and both reads before both writes); the outcomes between
  them are not stated.
- Audio playback, rejected `play()` promises and the timer's progress-bar
  percentage (a floating-point display value).
- `isMuted` is a plain getter of the flag and has no function of its own.
- Round.HandleGuess: sound calls, like every sound call of the game component, are not part of the emitted effects; the timer's sound decisions are modelled in `TimerSound`.
- Text.Lower: lowers ASCII letters only, whereas `toLowerCase` follows the full Unicode case mapping.
- RemoteStats.CountAbove: compares a NULL score as 0, whereas the database leaves NULL out of `score > x`.
- RemoteStats.Rank: a failed count query (count null, giving rank 1) is not modelled; the count always succeeds.
- RemoteStats.UpdateUserStats: a failed write after a successful read is not modelled; the write always succeeds.
- Leaderboard.OrderByScore: orders a NULL score as 0, whereas the database's descending order puts NULL first; the order among equal scores is the service's choice and only one such order is modelled.
- Leaderboard.GetLeaderboard: failure of either leaderboard query (which makes the function return null) is not modelled.
- Accounts.LoginUser: the `last_login` timestamp a successful login writes to the users table is not modelled, because it is a wall-clock value and a failure of that write is only logged.
- LoginForm.HandleSubmit: the 'An error occurred' branch is not modelled, because both service calls catch their own errors and never throw.

=== FILE: accounts.dfy ===
/** Account creation and sign-in against the service's `users` table
    (`registerUser`, `loginUser` in src/utils/supabase.ts). Password encryption
    and checking are external: the stored hash is an input, and the check is a
    caller-supplied predicate. */
module Accounts {
  import opened Types
  import opened RemoteStats

  /** One `users` row. */
  datatype UserRow = UserRow(id: string, username: string, passwordHash: string)

  /** The two tables registration touches. */
  datatype Db = Db(users: seq<UserRow>, stats: seq<StatsRow>)

  /** A database after `registerUser`, and the user it returned, if any. */
  datatype Registered = Registered(db: Db, user: Option<AuthUser>)

  /** The stats row a new account starts with: every counter zero. */
  function FreshStats(userId: string): StatsRow {
    StatsRow(userId, Some(0), Some(0), Some(0), Some(0), Some(0))
  }

  /** The account rows carrying `username`. */
  function Named(users: seq<UserRow>, username: string): (r: seq<UserRow>)
    ensures |r| <= |users|
    ensures forall u :: u in r <==> u in users && u.username == username
  {
    if |users| == 0 then []
    else if users[0].username == username then [users[0]] + Named(users[1..], username)
    else Named(users[1..], username)
  }

  /** `.eq('username', name).single()`: data only when exactly one row matches. */
  function SingleNamed(users: seq<UserRow>, username: string): (r: Option<UserRow>)
    ensures r.Some? ==> r.value in users && r.value.username == username
    ensures r.Some? <==> |Named(users, username)| == 1
  {
    var rows := Named(users, username);
    if |rows| == 1 then Some(rows[0]) else None
  }

  /** `.delete().eq('id', id)`: every row with that id goes. */
  function DeleteId(users: seq<UserRow>, id: string): (r: seq<UserRow>)
    ensures forall u :: u in r <==> u in users && u.id != id
  {
    if |users| == 0 then []
    else if users[0].id == id then DeleteId(users[1..], id)
    else [users[0]] + DeleteId(users[1..], id)
  }

  /** Deleting an id nobody has changes nothing. */
  lemma {:induction false} DeleteAbsentId(users: seq<UserRow>, id: string)
    requires forall u :: u in users ==> u.id != id
    ensures DeleteId(users, id) == users
  {
    if |users| > 0 {
      assert users[0] in users;
      DeleteAbsentId(users[1..], id);
      assert users == [users[0]] + users[1..];
    }
  }

  /** Deleting an id removes a row appended with that id. */
  lemma {:induction false} DeleteAppended(users: seq<UserRow>, row: UserRow)
    ensures DeleteId(users + [row], row.id) == DeleteId(users, row.id)
  {
    if |users| == 0 {
      assert users + [row] == [row];
    } else {
      assert (users + [row])[1..] == users[1..] + [row];
      DeleteAppended(users[1..], row);
    }
  }

  /** `registerUser`. The existence check succeeds only when exactly one
      account has the name, and then nothing is written. Otherwise the account
      insert is attempted; `insertedId` is the id the service assigned, or
      `None` when the insert failed. When the stats insert then fails
      (`statsInsertOk` false) the new account is deleted again. */
  function RegisterUser(db: Db, username: string, passwordHash: string,
                        insertedId: Option<string>, statsInsertOk: bool): (r: Registered)
    ensures SingleNamed(db.users, username).Some? ==> r == Registered(db, None)
    ensures insertedId.None? ==> r.db == db && r.user.None?
    ensures r.user.Some? <==> SingleNamed(db.users, username).None? && insertedId.Some? && statsInsertOk
    ensures r.user.Some? ==>
              && r.user.value == AuthUser(insertedId.value, username)
              && r.db.users == db.users + [UserRow(insertedId.value, username, passwordHash)]
              && r.db.stats == db.stats + [FreshStats(insertedId.value)]
    ensures r.db.stats == db.stats || r.user.Some?
  {
    if SingleNamed(db.users, username).Some? then Registered(db, None)
    else
      match insertedId
      case None => Registered(db, None)
      case Some(id) =>
        var users := db.users + [UserRow(id, username, passwordHash)];
        if statsInsertOk then
          Registered(Db(users, db.stats + [FreshStats(id)]), Some(AuthUser(id, username)))
        else
          Registered(Db(DeleteId(users, id), db.stats), None)
  }

  /** The rollback: when the stats insert fails for an account whose id was
      new, both tables end exactly as they started. */
  lemma RollbackRestores(db: Db, username: string, passwordHash: string, id: string)
    requires forall u :: u in db.users ==> u.id != id
    ensures RegisterUser(db, username, passwordHash, Some(id), false).db == db
    ensures RegisterUser(db, username, passwordHash, Some(id), false).user.None?
  {
    if SingleNamed(db.users, username).None? {
      DeleteAppended(db.users, UserRow(id, username, passwordHash));
      DeleteAbsentId(db.users, id);
    }
  }

  /** `loginUser`: exactly one account with the name whose stored hash the
      password check accepts. */
  function LoginUser(users: seq<UserRow>, username: string, password: string,
                     verify: (string, string) -> bool): (r: Option<AuthUser>)
    ensures r.Some? <==> SingleNamed(users, username).Some? && verify(password, SingleNamed(users, username).value.passwordHash)
    ensures r.Some? ==> r.value.username == username
                        && exists u :: u in users && u.id == r.value.id && u.username == username
  {
    match SingleNamed(users, username)
    case None => None
    case Some(u) => if verify(password, u.passwordHash) then Some(AuthUser(u.id, u.username)) else None
  }

  /** A name no account holds registers successfully, and the new account can
      then sign in with a password the check accepts for its stored hash. */
  lemma RegisteredCanLogIn(db: Db, username: string, passwordHash: string, id: string,
                           password: string, verify: (string, string) -> bool)
    requires Named(db.users, username) == []
    requires verify(password, passwordHash)
    ensures RegisterUser(db, username, passwordHash, Some(id), true).user == Some(AuthUser(id, username))
    ensures LoginUser(RegisterUser(db, username, passwordHash, Some(id), true).db.users, username, password, verify)
            == Some(AuthUser(id, username))
  {
    var row := UserRow(id, username, passwordHash);
    NamedAppend(db.users, row, username);
  }

  /** The rows named `username` after appending `row`. */
  lemma {:induction false} NamedAppend(users: seq<UserRow>, row: UserRow, username: string)
    ensures Named(users + [row], username) == Named(users, username) + (if row.username == username then [row] else [])
  {
    if |users| == 0 {
      assert users + [row] == [row];
    } else {
      assert (users + [row])[1..] == users[1..] + [row];
      NamedAppend(users[1..], row, username);
    }
  }
}

=== FILE: leaderboard.dfy ===
/** The leaderboard (`getLeaderboard` in src/utils/supabase.ts): the ten
    highest-scoring stats rows, joined with usernames, ranked by position. The
    service's `order('score', { ascending: false })` is modelled by an
    insertion sort on the score; the order among equal scores is the
    service's choice and is not promised. */
module Leaderboard {
  import opened Types
  import opened RemoteStats
  import opened Accounts

  /** `.limit(10)`. */
  const MaxRows: nat := 10

  /** The name shown when a row's user has no (non-empty) username. */
  const UnknownUser: string := "Unknown User"

  /** One leaderboard entry: the raw counters of the row, its username and its
      1-based position. */
  datatype LeaderRow = LeaderRow(
    username: string,
    score: Option<int>,
    totalPaintings: Option<int>,
    totalGuesses: Option<int>,
    correctGuesses: Option<int>,
    wrongGuesses: Option<int>,
    rank: int)

  /** Scores never increase along the sequence. */
  predicate SortedDesc(s: seq<StatsRow>) {
    forall i, j :: 0 <= i < j < |s| ==> ScoreOf(s[i]) >= ScoreOf(s[j])
  }

  /** Places `x` before the first row it scores at least as high as. */
  function Insert(x: StatsRow, s: seq<StatsRow>): (r: seq<StatsRow>)
    requires SortedDesc(s)
    ensures SortedDesc(r)
    ensures multiset(r) == multiset(s) + multiset{x}
    ensures |r| == |s| + 1
    ensures forall y :: y in r ==> y in s || y == x
  {
    if |s| == 0 || ScoreOf(x) >= ScoreOf(s[0]) then [x] + s
    else
      var t := Insert(x, s[1..]);
      assert s == [s[0]] + s[1..];
      assert forall j :: 0 <= j < |t| ==> ScoreOf(s[0]) >= ScoreOf(t[j]) by {
        forall j | 0 <= j < |t| ensures ScoreOf(s[0]) >= ScoreOf(t[j]) {
          assert t[j] in t;
        }
      }
      [s[0]] + t
  }

  /** The table in non-increasing score order. */
  function OrderByScore(table: seq<StatsRow>): (r: seq<StatsRow>)
    ensures SortedDesc(r)
    ensures multiset(r) == multiset(table)
    ensures |r| == |table|
  {
    if |table| == 0 then []
    else
      assert table == [table[0]] + table[1..];
      Insert(table[0], OrderByScore(table[1..]))
  }

  /** The stats rows the leaderboard shows: the first ten of the ordered table.
      They are drawn from the table, in order, and every row left out scores
      no more than any row kept. */
  function TopStats(table: seq<StatsRow>): (r: seq<StatsRow>)
    ensures |r| == if |table| < MaxRows then |table| else MaxRows
    ensures SortedDesc(r)
    ensures multiset(r) <= multiset(table)
    ensures forall x, i :: x in multiset(table) - multiset(r) && 0 <= i < |r| ==> ScoreOf(x) <= ScoreOf(r[i])
  {
    var sorted := OrderByScore(table);
    var n := if |sorted| < MaxRows then |sorted| else MaxRows;
    TopSplit(table, sorted, n);
    sorted[..n]
  }

  /** Cutting a sorted permutation of `table` at `n`: the prefix is sorted, is
      drawn from the table, and nothing left out scores above anything kept. */
  lemma TopSplit(table: seq<StatsRow>, sorted: seq<StatsRow>, n: nat)
    requires SortedDesc(sorted) && multiset(sorted) == multiset(table) && n <= |sorted|
    ensures SortedDesc(sorted[..n])
    ensures multiset(sorted[..n]) <= multiset(table)
    ensures forall x, i :: x in multiset(table) - multiset(sorted[..n]) && 0 <= i < n ==> ScoreOf(x) <= ScoreOf(sorted[..n][i])
  {
    var top, rest := sorted[..n], sorted[n..];
    assert sorted == top + rest;
    assert multiset(sorted) == multiset(top) + multiset(rest);
    RestBelowTop(sorted, n);
  }

  /** Every row past position `n` of a sorted sequence scores at most every row before it. */
  lemma RestBelowTop(sorted: seq<StatsRow>, n: nat)
    requires SortedDesc(sorted) && n <= |sorted|
    ensures forall x, i :: x in multiset(sorted[n..]) && 0 <= i < n ==> ScoreOf(x) <= ScoreOf(sorted[..n][i])
  {
    forall x, i | x in multiset(sorted[n..]) && 0 <= i < n
      ensures ScoreOf(x) <= ScoreOf(sorted[..n][i])
    {
      assert x in sorted[n..];
      var k :| 0 <= k < |sorted[n..]| && sorted[n..][k] == x;
      assert sorted[n + k] == x;
      assert sorted[..n][i] == sorted[i];
    }
  }

  /** The user ids of the selected rows, as passed to `.in('id', ...)`. */
  function UserIds(rows: seq<StatsRow>): (r: seq<string>)
    ensures |r| == |rows| && forall i :: 0 <= i < |rows| ==> r[i] == rows[i].userId
  {
    seq(|rows|, i requires 0 <= i < |rows| => rows[i].userId)
  }

  /** `.from('users').in('id', ids)`: the account rows whose id was asked for. */
  function RowsWithIds(users: seq<UserRow>, ids: seq<string>): (r: seq<UserRow>)
    ensures forall u :: u in r <==> u in users && u.id in ids
  {
    if |users| == 0 then []
    else if users[0].id in ids then [users[0]] + RowsWithIds(users[1..], ids)
    else RowsWithIds(users[1..], ids)
  }

  /** `new Map(users.map(u => [u.id, u.username]))`: a later pair for the same
      id overwrites an earlier one. */
  function UsernameMap(users: seq<UserRow>): (m: map<string, string>)
    ensures forall id :: id in m <==> exists u :: u in users && u.id == id
    ensures forall id :: id in m ==> exists u :: u in users && u.id == id && m[id] == u.username
    decreases |users|
  {
    if |users| == 0 then map[]
    else
      var last := users[|users| - 1];
      var init := users[..|users| - 1];
      assert users == init + [last];
      UsernameMap(init)[last.id := last.username]
  }

  /** `usernameMap.get(id) || 'Unknown User'`: an empty name is falsy too. */
  function NameOrUnknown(m: map<string, string>, id: string): (r: string)
    ensures r == UnknownUser || (id in m && r == m[id] && r != "")
    ensures id in m && m[id] != "" ==> r == m[id]
    ensures id !in m ==> r == UnknownUser
  {
    if id in m && m[id] != "" then m[id] else UnknownUser
  }

  /** `getLeaderboard`: at most ten rows, scores non-increasing, ranked 1, 2,
      3, ... by position (so ties get distinct ranks). Each entry carries the
      counters of its stats row and is named after an account with that row's
      user id, or `Unknown User`. */
  function GetLeaderboard(table: seq<StatsRow>, users: seq<UserRow>): (r: seq<LeaderRow>)
    ensures |r| <= MaxRows
    ensures |r| == if |table| < MaxRows then |table| else MaxRows
    ensures forall i :: 0 <= i < |r| ==> r[i].rank == i + 1
    ensures forall i, j :: 0 <= i < j < |r| ==> NumOf(r[i].score) >= NumOf(r[j].score)
    ensures forall i :: 0 <= i < |r| ==>
              var row := TopStats(table)[i];
              && r[i].score == row.score && r[i].totalPaintings == row.totalPaintings
              && r[i].totalGuesses == row.totalGuesses && r[i].correctGuesses == row.correctGuesses
              && r[i].wrongGuesses == row.wrongGuesses
    ensures forall i :: 0 <= i < |r| ==>
              || r[i].username == UnknownUser
              || (r[i].username != "" && exists u :: u in users && u.id == TopStats(table)[i].userId && u.username == r[i].username)
  {
    var top := TopStats(table);
    var m := UsernameMap(RowsWithIds(users, UserIds(top)));
    seq(|top|, i requires 0 <= i < |top| =>
      var row := top[i];
      LeaderRow(NameOrUnknown(m, row.userId), row.score, row.totalPaintings, row.totalGuesses,
                row.correctGuesses, row.wrongGuesses, i + 1))
  }

  /** A row whose user id matches no account is shown as `Unknown User`. */
  lemma UnmatchedIsUnknown(table: seq<StatsRow>, users: seq<UserRow>, i: int)
    requires 0 <= i < |table| && i < MaxRows
    requires forall u :: u in users ==> u.id != TopStats(table)[i].userId
    ensures GetLeaderboard(table, users)[i].username == UnknownUser
  {
  }

  /** A row whose user id matches exactly one account with a non-empty name is
      shown under that name. */
  lemma MatchedShowsName(table: seq<StatsRow>, users: seq<UserRow>, i: int, u: UserRow)
    requires 0 <= i < |table| && i < MaxRows
    requires u in users && u.id == TopStats(table)[i].userId && u.username != ""
    requires forall v :: v in users && v.id == u.id ==> v == u
    ensures GetLeaderboard(table, users)[i].username == u.username
  {
    var top := TopStats(table);
    var ids := UserIds(top);
    assert ids[i] == u.id;
    var m := UsernameMap(RowsWithIds(users, ids));
    assert u in RowsWithIds(users, ids);
  }

  /** Ranking by position never beats the service's score rank: the row at
      position `i` has at most `i` rows scoring strictly more, so its positional
      rank is at least its score rank. */
  lemma PositionalRankAtLeastScoreRank(table: seq<StatsRow>, users: seq<UserRow>, i: int)
    requires 0 <= i < |table| && i < MaxRows
    ensures GetLeaderboard(table, users)[i].rank >= Rank(table, NumOf(GetLeaderboard(table, users)[i].score))
  {
    var sorted := OrderByScore(table);
    OrderKeepsCount(table, ScoreOf(sorted[i]));
    SortedCountAbove(sorted, i);
  }

  /** Inserting a row adds exactly its own contribution to every count. */
  lemma {:induction false} InsertCount(x: StatsRow, s: seq<StatsRow>, t: int)
    requires SortedDesc(s)
    ensures CountAbove(Insert(x, s), t) == CountAbove(s, t) + (if ScoreOf(x) > t then 1 else 0)
  {
    if |s| == 0 || ScoreOf(x) >= ScoreOf(s[0]) {
      assert Insert(x, s)[1..] == s;
    } else {
      InsertCount(x, s[1..], t);
      assert Insert(x, s)[1..] == Insert(x, s[1..]);
    }
  }

  /** Ordering the table does not change how many rows score above `t`. */
  lemma {:induction false} OrderKeepsCount(table: seq<StatsRow>, t: int)
    ensures CountAbove(OrderByScore(table), t) == CountAbove(table, t)
  {
    if |table| > 0 {
      OrderKeepsCount(table[1..], t);
      InsertCount(table[0], OrderByScore(table[1..]), t);
    }
  }

  /** In a sorted sequence only the rows before position `i` can score more than row `i`. */
  lemma {:induction false} SortedCountAbove(s: seq<StatsRow>, i: int)
    requires SortedDesc(s) && 0 <= i < |s|
    ensures CountAbove(s, ScoreOf(s[i])) <= i
  {
    if i == 0 {
      TopScoreRanksFirst(s, ScoreOf(s[0]));
    } else {
      assert s[1..][i - 1] == s[i];
      SortedCountAbove(s[1..], i - 1);
    }
  }
}

=== FILE: login.dfy ===
/** The sign-in form's submit handler (`handleSubmit` in
    src/components/Login.tsx): validation, then login, then registration as
    a fallback. The two service calls are oracles: their replies are inputs,
    and the calls made are part of the result. */
module LoginForm {
  import opened Types
  import Text

  /** The form's state cells. */
  datatype Form = Form(username: string, password: string, error: string, isLoading: bool)

  /** A service call the handler makes, with the exact arguments. */
  datatype Call = LoginCall(username: string, password: string) | RegisterCall(username: string, password: string)

  /** One submission: the form while the calls are in flight, the final form,
      the calls in order, and the user handed to `onLogin`, if any. */
  datatype Submitted = Submitted(pending: Form, form: Form, calls: seq<Call>, signedIn: Option<AuthUser>)

  const FillInAllFields: string := "Please fill in all fields"
  const LoginOrRegisterFailed: string := "Failed to login or register"

  /** Either field is empty after trimming. */
  predicate MissingField(f: Form) {
    Text.IsBlank(f.username) || Text.IsBlank(f.password)
  }

  /** `handleSubmit`. The error is cleared and the spinner shown first. A
      blank field stops there with an error and no call. Otherwise login is
      tried with the untrimmed inputs; registration only when login returned
      nothing; a resulting user goes to `onLogin`, else the failure message is
      shown. The spinner is off at the end of every path. */
  function HandleSubmit(f: Form, loginReply: Option<AuthUser>, registerReply: Option<AuthUser>): (r: Submitted)
    ensures r.pending == f.(error := "", isLoading := true)
    ensures !r.form.isLoading && r.form.username == f.username && r.form.password == f.password
    ensures MissingField(f) ==> r.calls == [] && r.signedIn.None? && r.form.error == FillInAllFields
    ensures !MissingField(f) ==>
              && 1 <= |r.calls| <= 2
              && r.calls[0] == LoginCall(f.username, f.password)
              && (|r.calls| == 2 <==> loginReply.None?)
              && (|r.calls| == 2 ==> r.calls[1] == RegisterCall(f.username, f.password))
              && r.signedIn == (if loginReply.Some? then loginReply else registerReply)
              && r.form.error == (if r.signedIn.Some? then "" else LoginOrRegisterFailed)
  {
    var missing := Text.TrimsToNothing(f.username) || Text.TrimsToNothing(f.password);
    var pending := f.(error := "", isLoading := true);
    var login := LoginCall(f.username, f.password);
    if missing then
      Submitted(pending, pending.(error := FillInAllFields, isLoading := false), [], None)
    else if loginReply.Some? then
      Submitted(pending, pending.(isLoading := false), [login], loginReply)
    else
      var error := if registerReply.Some? then "" else LoginOrRegisterFailed;
      Submitted(pending, pending.(error := error, isLoading := false),
                [login, RegisterCall(f.username, f.password)], registerReply)
  }

  /** A user is handed on exactly when some service call returned one, and
      registration is never attempted after a successful login. */
  lemma SignedInIffReply(f: Form, loginReply: Option<AuthUser>, registerReply: Option<AuthUser>)
    requires !MissingField(f)
    ensures HandleSubmit(f, loginReply, registerReply).signedIn.Some? <==> loginReply.Some? || registerReply.Some?
    ensures loginReply.Some? ==> forall c :: c in HandleSubmit(f, loginReply, registerReply).calls ==> c.LoginCall?
  {
  }

  /** Whitespace-only input is rejected the same way as empty input: a
      username or password made only of whitespace gives the same outcome as
      an empty one, with no service call. */
  lemma WhitespaceIsMissing(f: Form, w: string, loginReply: Option<AuthUser>, registerReply: Option<AuthUser>)
    requires Text.IsBlank(w)
    ensures HandleSubmit(f.(username := w), loginReply, registerReply).calls == []
    ensures HandleSubmit(f.(password := w), loginReply, registerReply).calls == []
    ensures HandleSubmit(f.(username := w), loginReply, registerReply).form
            == HandleSubmit(f.(username := ""), loginReply, registerReply).form.(username := w)
    ensures HandleSubmit(f.(password := w), loginReply, registerReply).form
            == HandleSubmit(f.(password := ""), loginReply, registerReply).form.(password := w)
  {
  }
}

=== FILE: remote.dfy ===
/** The pure computations around the remote stats table
    (src/utils/supabase.ts): reading one user's row, the new counter values,
    the rank query and the `|| 0` mapping back to `GameStats`. The table is a
    sequence of rows; each query is the function of the table it selects. */
module RemoteStats {
  import opened Types

  /** One `user_stats` row. A counter is `None` when the column holds NULL. */
  datatype StatsRow = StatsRow(
    userId: string,
    totalPaintings: Option<int>,
    totalGuesses: Option<int>,
    correctGuesses: Option<int>,
    wrongGuesses: Option<int>,
    score: Option<int>)

  /** A table after a call, together with the counters the call returns. */
  datatype Reply = Reply(table: seq<StatsRow>, stats: Option<GameStats>)

  /** The number a nullable column stands for: both `v || 0` and JavaScript's
      `null + k` read a NULL as 0. */
  function NumOf(v: Option<int>): (n: int)
    ensures v.None? ==> n == 0
    ensures v.Some? ==> n == v.value
  {
    v.GetOr(0)
  }

  /** The score a row is ordered and compared by. */
  function ScoreOf(row: StatsRow): int {
    NumOf(row.score)
  }

  /** The rows of one user. */
  function RowsOf(table: seq<StatsRow>, userId: string): (r: seq<StatsRow>)
    ensures |r| <= |table|
    ensures forall x :: x in r <==> x in table && x.userId == userId
  {
    if |table| == 0 then []
    else if table[0].userId == userId then [table[0]] + RowsOf(table[1..], userId)
    else RowsOf(table[1..], userId)
  }

  /** `.eq('user_id', id).single()`: a row only when exactly one matches;
      none or several is an error and yields no data. */
  function FetchRow(table: seq<StatsRow>, userId: string): (r: Option<StatsRow>)
    ensures r.Some? <==> |RowsOf(table, userId)| == 1
    ensures r.Some? ==> RowsOf(table, userId) == [r.value]
    ensures r.Some? ==> r.value in table && r.value.userId == userId
    ensures (forall x :: x in table ==> x.userId != userId) ==> r.None?
  {
    var rows := RowsOf(table, userId);
    if |rows| == 1 then Some(rows[0]) else None
  }

  /** `.update(values).eq('user_id', id)`: every row of that user becomes
      `updated`; the other rows stay where they are. */
  function UpdateWhere(table: seq<StatsRow>, userId: string, updated: StatsRow): (r: seq<StatsRow>)
    ensures |r| == |table|
    ensures forall i :: 0 <= i < |table| ==> r[i] == (if table[i].userId == userId then updated else table[i])
  {
    seq(|table|, i requires 0 <= i < |table| => if table[i].userId == userId then updated else table[i])
  }

  /** The new column values `updateUserStats` writes for one judged guess. */
  function GuessCounters(cur: StatsRow, isCorrect: bool): (r: StatsRow)
    ensures r.userId == cur.userId && r.totalPaintings == cur.totalPaintings
    ensures NumOf(r.totalGuesses) == NumOf(cur.totalGuesses) + 1
    ensures NumOf(r.correctGuesses) + NumOf(r.wrongGuesses) == NumOf(cur.correctGuesses) + NumOf(cur.wrongGuesses) + 1
    ensures isCorrect ==> NumOf(r.correctGuesses) == NumOf(cur.correctGuesses) + 1 && r.wrongGuesses == cur.wrongGuesses
    ensures !isCorrect ==> NumOf(r.wrongGuesses) == NumOf(cur.wrongGuesses) + 1 && r.correctGuesses == cur.correctGuesses
    ensures NumOf(r.score) == NumOf(cur.score) + (if isCorrect then PointsPerCorrectGuess else 0)
  {
    cur.(totalGuesses := Some(NumOf(cur.totalGuesses) + 1),
         correctGuesses := if isCorrect then Some(NumOf(cur.correctGuesses) + 1) else cur.correctGuesses,
         wrongGuesses := if isCorrect then cur.wrongGuesses else Some(NumOf(cur.wrongGuesses) + 1),
         score := if isCorrect then Some(NumOf(cur.score) + PointsPerCorrectGuess) else cur.score)
  }

  /** The new column value `incrementTotalPaintings` writes. */
  function PaintingCounters(cur: StatsRow): (r: StatsRow)
    ensures NumOf(r.totalPaintings) == NumOf(cur.totalPaintings) + 1
    ensures r.(totalPaintings := cur.totalPaintings) == cur
  {
    cur.(totalPaintings := Some(NumOf(cur.totalPaintings) + 1))
  }

  /** `.gt('score', s)` with an exact count: the rows scoring strictly more. */
  function CountAbove(table: seq<StatsRow>, s: int): (n: nat)
    ensures n <= |table|
  {
    if |table| == 0 then 0
    else (if ScoreOf(table[0]) > s then 1 else 0) + CountAbove(table[1..], s)
  }

  /** The 1-based rank the service reports for score `s`. */
  function Rank(table: seq<StatsRow>, s: int): (r: int)
    ensures 1 <= r <= |table| + 1
  {
    CountAbove(table, s) + 1
  }

  /** The top score is ranked first. */
  lemma {:induction false} TopScoreRanksFirst(table: seq<StatsRow>, s: int)
    requires forall x :: x in table ==> ScoreOf(x) <= s
    ensures Rank(table, s) == 1
  {
    if |table| > 0 {
      assert table[0] in table;
      TopScoreRanksFirst(table[1..], s);
    }
  }

  /** A higher score never gets a worse rank; in particular equal scores share one. */
  lemma {:induction false} RankMonotone(table: seq<StatsRow>, s: int, t: int)
    requires s <= t
    ensures Rank(table, t) <= Rank(table, s)
  {
    if |table| > 0 {
      RankMonotone(table[1..], s, t);
    }
  }

  /** A score held by some row counts at most the other rows, so its rank is
      at most the table size. */
  lemma {:induction false} RankWithinTable(table: seq<StatsRow>, row: StatsRow)
    requires row in table
    ensures Rank(table, ScoreOf(row)) <= |table|
  {
    if table[0] != row {
      RankWithinTable(table[1..], row);
    }
  }

  /** The `GameStats` returned to the client: each counter `|| 0`, plus rank. */
  function ToGameStats(row: StatsRow, rank: int): (r: GameStats)
    ensures r.totalPaintings == NumOf(row.totalPaintings) && r.totalGuesses == NumOf(row.totalGuesses)
    ensures r.correctGuesses == NumOf(row.correctGuesses) && r.wrongGuesses == NumOf(row.wrongGuesses)
    ensures r.score == NumOf(row.score) && r.rank == rank
  {
    GameStats(row.totalPaintings.GetOr(0), row.totalGuesses.GetOr(0), row.correctGuesses.GetOr(0),
              row.wrongGuesses.GetOr(0), row.score.GetOr(0), rank)
  }

  /** `getUserStats`: read-only. */
  function GetUserStats(table: seq<StatsRow>, userId: string): (r: Option<GameStats>)
    ensures FetchRow(table, userId).None? <==> r.None?
    ensures r.Some? ==> r.value.rank >= 1 && r.value == ToGameStats(FetchRow(table, userId).value, r.value.rank)
    ensures r.Some? ==> r.value.rank == CountAbove(table, r.value.score) + 1
  {
    match FetchRow(table, userId)
    case None => None
    case Some(row) => Some(ToGameStats(row, Rank(table, ScoreOf(row))))
  }

  /** The tail shared by both counter updates: `updated` is written over the
      user's rows (`.update(...).eq('user_id', id).select().single()`), then
      reported with the rank it has in the table as written. When the user had
      a single row, a later read returns exactly what was reported. */
  function WriteAndReport(table: seq<StatsRow>, userId: string, updated: StatsRow): (r: Reply)
    ensures |r.table| == |table|
    ensures forall i :: 0 <= i < |table| ==> r.table[i] == (if table[i].userId == userId then updated else table[i])
    ensures r.stats.Some? && r.stats.value.(rank := 0) == ToGameStats(updated, 0)
    ensures r.stats.Some? ==> r.stats.value.rank == CountAbove(r.table, r.stats.value.score) + 1
    ensures |RowsOf(table, userId)| == 1 && updated.userId == userId ==> GetUserStats(r.table, userId) == r.stats
  {
    var written := UpdateWhere(table, userId, updated);
    var reply := Reply(written, Some(ToGameStats(updated, Rank(written, ScoreOf(updated)))));
    if |RowsOf(table, userId)| == 1 && updated.userId == userId then
      UpdateKeepsSingleRow(table, userId, updated);
      reply
    else reply
  }

  /** `updateUserStats`: a failed or ambiguous read returns null and writes
      nothing; otherwise one guess is counted in the user's row, the other rows
      stay, and the new counters come back with the rank recomputed on the
      table as written, which is what a later read returns. */
  function UpdateUserStats(table: seq<StatsRow>, userId: string, isCorrect: bool): (r: Reply)
    ensures FetchRow(table, userId).None? ==> r == Reply(table, None)
    ensures FetchRow(table, userId).Some? ==>
              var cur := ToGameStats(FetchRow(table, userId).value, 0);
              && r.stats.Some?
              && r.stats.value.totalGuesses == cur.totalGuesses + 1
              && r.stats.value.correctGuesses == cur.correctGuesses + (if isCorrect then 1 else 0)
              && r.stats.value.wrongGuesses == cur.wrongGuesses + (if isCorrect then 0 else 1)
              && r.stats.value.score == cur.score + (if isCorrect then PointsPerCorrectGuess else 0)
              && r.stats.value.totalPaintings == cur.totalPaintings
              && r.stats.value.rank >= 1
    ensures |r.table| == |table|
    ensures FetchRow(table, userId).Some? ==>
              forall i :: 0 <= i < |r.table| && table[i].userId == userId ==>
                r.table[i] == GuessCounters(FetchRow(table, userId).value, isCorrect)
    ensures r.stats.Some? ==> r.stats.value.rank == CountAbove(r.table, r.stats.value.score) + 1
    ensures FetchRow(table, userId).Some? ==> GetUserStats(r.table, userId) == r.stats
    ensures forall i :: 0 <= i < |table| && table[i].userId != userId ==> r.table[i] == table[i]
  {
    match FetchRow(table, userId)
    case None => Reply(table, None)
    case Some(cur) => WriteAndReport(table, userId, GuessCounters(cur, isCorrect))
  }

  /** `incrementTotalPaintings` on the service: a failed read writes nothing;
      otherwise the user's row is rewritten with only `total_paintings` moved,
      by one, the other rows stay, and a later read returns what was reported. */
  function IncrementTotalPaintings(table: seq<StatsRow>, userId: string): (r: Reply)
    ensures FetchRow(table, userId).None? ==> r == Reply(table, None)
    ensures FetchRow(table, userId).Some? ==>
              var cur := ToGameStats(FetchRow(table, userId).value, 0);
              && r.stats.Some?
              && r.stats.value.(rank := 0) == cur.(totalPaintings := cur.totalPaintings + 1)
              && r.stats.value.rank >= 1
    ensures |r.table| == |table|
    ensures FetchRow(table, userId).Some? ==>
              forall i :: 0 <= i < |r.table| && table[i].userId == userId ==>
                r.table[i] == PaintingCounters(FetchRow(table, userId).value)
    ensures r.stats.Some? ==> r.stats.value.rank == CountAbove(r.table, r.stats.value.score) + 1
    ensures FetchRow(table, userId).Some? ==> GetUserStats(r.table, userId) == r.stats
    ensures forall i :: 0 <= i < |table| && table[i].userId != userId ==> r.table[i] == table[i]
  {
    match FetchRow(table, userId)
    case None => Reply(table, None)
    case Some(cur) => WriteAndReport(table, userId, PaintingCounters(cur))
  }

  /** After a successful update the next read returns the same counters. */
  lemma UpdateThenRead(table: seq<StatsRow>, userId: string, isCorrect: bool)
    requires FetchRow(table, userId).Some?
    ensures GetUserStats(UpdateUserStats(table, userId, isCorrect).table, userId)
            == UpdateUserStats(table, userId, isCorrect).stats
  {
    var cur := FetchRow(table, userId).value;
    var upd := GuessCounters(cur, isCorrect);
    var t2 := UpdateWhere(table, userId, upd);
    UpdateKeepsSingleRow(table, userId, upd);
  }

  /** Overwriting the single row of a user leaves that user with exactly the
      written row. */
  lemma {:induction false} UpdateKeepsSingleRow(table: seq<StatsRow>, userId: string, updated: StatsRow)
    requires |RowsOf(table, userId)| == 1
    requires updated.userId == userId
    ensures RowsOf(UpdateWhere(table, userId, updated), userId) == [updated]
  {
    RowsOfUpdate(table, userId, updated);
  }

  /** Each row of the user becomes `updated`, so the user's rows are that many copies. */
  lemma {:induction false} RowsOfUpdate(table: seq<StatsRow>, userId: string, updated: StatsRow)
    requires updated.userId == userId
    ensures RowsOf(UpdateWhere(table, userId, updated), userId) == seq(|RowsOf(table, userId)|, _ => updated)
  {
    if |table| > 0 {
      var t2 := UpdateWhere(table, userId, updated);
      assert t2[1..] == UpdateWhere(table[1..], userId, updated);
      RowsOfUpdate(table[1..], userId, updated);
    }
  }
}

=== FILE: round.dfy ===
/** One round of play as driven by the `Game` component
    (src/components/Game.tsx): the React state of the component as a record,
    and each event handler or effect as a step function from state to state
    plus the remote stats calls it issues. The reply to a remote call is an
    input of the step that awaits it; the painting source is an input of the
    step that receives its answer. Every step follows the code as written,
    including its rough edges (see the two Finding lemmas at the end). */
module Round {
  import opened Types
  import Text

  /** Seconds on the clock at the start of every round. */
  const RoundSeconds: nat := 30

  /** The component's `feedback` state. `Waiting` is declared by the source
      but never set. */
  datatype Feedback = NoFeedback | Correct | WrongGuess | Waiting

  /** A call to the remote services that a step issues. */
  datatype Effect =
    | FetchPainting
    | GetStats(userId: string)
    | UpdateStats(userId: string, isCorrect: bool)
    | IncrementPaintings(userId: string)

  /** The component state. `session` is the `current-user` entry the handlers
      read from localStorage; the rest are the component's `useState` cells. */
  datatype State = State(
    session: Option<AuthUser>,
    loggedIn: bool,
    username: string,
    painting: Option<Painting>,
    guess: string,
    feedback: Feedback,
    timeLeft: int,
    timerActive: bool,
    imageLoading: bool,
    stats: GameStats)

  /** A step's new state and the remote calls it issued, in order. */
  datatype Step = Step(st: State, effects: seq<Effect>)

  /** The state before any effect has run. */
  const Initial: State := State(None, false, "", None, "", NoFeedback, RoundSeconds, false, true, ZeroStats)

  /** The clock stays within a round's range. */
  predicate Inv(st: State) {
    0 <= st.timeLeft <= RoundSeconds
  }

  /** `if (newStats) setStats(newStats)`: a null reply keeps what is shown. */
  function Mirror(shown: GameStats, reply: Option<GameStats>): (r: GameStats)
    ensures reply.Some? ==> r == reply.value
    ensures reply.None? ==> r == shown
  {
    reply.GetOr(shown)
  }

  /** The stats-update calls among `effects`. */
  function Updates(effects: seq<Effect>): (n: nat)
    ensures n <= |effects|
  {
    if |effects| == 0 then 0
    else (if effects[0].UpdateStats? then 1 else 0) + Updates(effects[1..])
  }

  /** The guess input and submit button are disabled. */
  predicate InputDisabled(st: State) {
    st.timeLeft == 0 || st.imageLoading || st.feedback == Correct
  }

  /** The "Next Painting" button is shown. */
  predicate ShowNext(st: State) {
    st.feedback == Correct || st.timeLeft == 0
  }

  /** `loadNewPainting` up to its `await`: the round fields are reset and the
      painting is requested. The timer flag is deliberately left alone. */
  function LoadNewPainting(st: State): (r: Step)
    ensures r.effects == [FetchPainting]
    ensures r.st.imageLoading && r.st.feedback == NoFeedback && r.st.guess == ""
    ensures r.st.timeLeft == RoundSeconds && r.st.painting.None?
    ensures r.st.timerActive == st.timerActive
    ensures r.st.session == st.session && r.st.loggedIn == st.loggedIn
    ensures r.st.username == st.username && r.st.stats == st.stats
    ensures Inv(r.st)
  {
    Step(st.(imageLoading := true, feedback := NoFeedback, guess := "", timeLeft := RoundSeconds, painting := None),
         [FetchPainting])
  }

  /** The rest of `loadNewPainting`, once the painting source has answered
      (`fetched`) and, for a signed-in user, the paintings counter call has
      returned (`reply`). A failed fetch is caught and changes nothing. */
  function ReceivePainting(st: State, fetched: Option<Painting>, reply: Option<GameStats>): (r: Step)
    ensures fetched.None? ==> r == Step(st, [])
    ensures fetched.Some? ==> r.st.painting == fetched
    ensures r.effects == if fetched.Some? && st.session.Some? then [IncrementPaintings(st.session.value.id)] else []
    ensures r.st.stats == if fetched.Some? && st.session.Some? then Mirror(st.stats, reply) else st.stats
    ensures r.st.(painting := st.painting, stats := st.stats) == st
  {
    match fetched
    case None => Step(st, [])
    case Some(p) =>
      match st.session
      case None => Step(st.(painting := Some(p)), [])
      case Some(u) => Step(st.(painting := Some(p), stats := Mirror(st.stats, reply)), [IncrementPaintings(u.id)])
  }

  /** `handleImageLoad`: the picture is on screen and the clock starts. */
  function HandleImageLoad(st: State): (r: State)
    ensures !r.imageLoading && r.timerActive
    ensures r.(imageLoading := st.imageLoading, timerActive := st.timerActive) == st
  {
    st.(imageLoading := false, timerActive := true)
  }

  /** The one-second timeout the timer effect schedules: it only exists while
      the clock is positive and running, and takes exactly one second off. */
  function TimerTick(st: State): (r: State)
    ensures st.timeLeft > 0 && st.timerActive ==> r.timeLeft == st.timeLeft - 1
    ensures !(st.timeLeft > 0 && st.timerActive) ==> r == st
    ensures r.(timeLeft := st.timeLeft) == st
    ensures Inv(st) ==> Inv(r)
  {
    if st.timeLeft > 0 && st.timerActive then st.(timeLeft := st.timeLeft - 1) else st
  }

  /** `handleTimeUp`: stops the clock and, when a painting is shown and a user
      is signed in, records a non-correct guess. It has no guard of its own,
      so every call issues the update again. */
  function HandleTimeUp(st: State, reply: Option<GameStats>): (r: Step)
    ensures !r.st.timerActive
    ensures r.effects == if st.painting.Some? && st.session.Some? then [UpdateStats(st.session.value.id, false)] else []
    ensures r.st.stats == if st.painting.Some? && st.session.Some? then Mirror(st.stats, reply) else st.stats
    ensures r.st.(timerActive := st.timerActive, stats := st.stats) == st
  {
    var stopped := st.(timerActive := false);
    if st.painting.Some? && st.session.Some? then
      Step(stopped.(stats := Mirror(st.stats, reply)), [UpdateStats(st.session.value.id, false)])
    else Step(stopped, [])
  }

  /** One run of the timer effect: while the clock is positive and running it
      only schedules the next tick; at zero it calls the time-up handler. */
  function RunTimerEffect(st: State, reply: Option<GameStats>): (r: Step)
    ensures st.timeLeft != 0 ==> r == Step(st, [])
    ensures st.timeLeft == 0 ==> r == HandleTimeUp(st, reply)
  {
    if st.timeLeft > 0 && st.timerActive then Step(st, [])
    else if st.timeLeft == 0 then HandleTimeUp(st, reply)
    else Step(st, [])
  }

  /** The timer effect depends on `timeLeft` and `isTimerActive`: a change of
      either makes React run it again. */
  predicate TimerEffectRerun(before: State, after: State) {
    before.timeLeft != after.timeLeft || before.timerActive != after.timerActive
  }

  /** The input box's `onChange`. */
  function SetGuess(st: State, text: string): (r: State)
    ensures r.guess == text && r.(guess := st.guess) == st
  {
    st.(guess := text)
  }

  /** `handleGuess` is ignored: no painting, clock stopped, or blank input. */
  predicate GuessIgnored(st: State): (r: bool)
    ensures r <==> st.painting.None? || !st.timerActive || Text.Trim(st.guess) == []
  {
    Text.TrimEmptyIffBlank(st.guess);
    st.painting.None? || !st.timerActive || Text.IsBlank(st.guess)
  }

  /** The guess matches the artist: whole string, case-insensitive, untrimmed. */
  predicate GuessMatches(guess: string, p: Painting): (r: bool)
    ensures r <==> |guess| == |p.artist|
                   && forall i :: 0 <= i < |guess| ==> Text.LowerChar(guess[i]) == Text.LowerChar(p.artist[i])
  {
    Text.SameIgnoringCaseIff(guess, p.artist);
    Text.SameIgnoringCase(guess, p.artist)
  }

  /** `handleGuess`. An ignored submission changes nothing and calls nothing.
      Otherwise a signed-in user's guess is sent as exactly one stats update
      carrying the verdict, and the shown stats take the reply when there is
      one. A correct guess stops the clock and keeps the text; a wrong one
      clears the text, keeps the clock running and shows the wrong-guess
      message. */
  function HandleGuess(st: State, reply: Option<GameStats>): (r: Step)
    ensures GuessIgnored(st) ==> r == Step(st, [])
    ensures !GuessIgnored(st) ==>
              var ok := GuessMatches(st.guess, st.painting.value);
              && r.effects == (if st.session.Some? then [UpdateStats(st.session.value.id, ok)] else [])
              && r.st.stats == (if st.session.Some? then Mirror(st.stats, reply) else st.stats)
              && (ok ==> r.st.feedback == Correct && !r.st.timerActive && r.st.guess == st.guess)
              && (!ok ==> r.st.feedback == WrongGuess && r.st.guess == "" && r.st.timerActive == st.timerActive)
              && r.st.(feedback := st.feedback, timerActive := st.timerActive, guess := st.guess, stats := st.stats) == st
  {
    Text.TrimEmptyIffBlank(st.guess);
    if st.painting.None? || !st.timerActive || Text.Trim(st.guess) == [] then Step(st, [])
    else
      var isCorrect := Text.Lower(st.guess) == Text.Lower(st.painting.value.artist);
      var counted := match st.session
        case Some(u) => Step(st.(stats := Mirror(st.stats, reply)), [UpdateStats(u.id, isCorrect)])
        case None => Step(st, []);
      if isCorrect then Step(counted.st.(feedback := Correct, timerActive := false), counted.effects)
      else Step(counted.st.(feedback := WrongGuess, guess := ""), counted.effects)
  }

  /** The two-second timeout a wrong guess schedules. It is never cancelled
      and clears whatever feedback is showing by then. */
  function ClearFeedback(st: State): (r: State)
    ensures r.feedback == NoFeedback && r.(feedback := st.feedback) == st
  {
    st.(feedback := NoFeedback)
  }

  /** `handleLogin`: the user is stored and shown, their stats are read (the
      reply replaces the shown stats when present), then a new painting is
      requested. */
  function HandleLogin(st: State, user: AuthUser, reply: Option<GameStats>): (r: Step)
    ensures r.st.session == Some(user) && r.st.loggedIn && r.st.username == user.username
    ensures r.st.stats == Mirror(st.stats, reply)
    ensures r.effects == [GetStats(user.id), FetchPainting]
    ensures r.st.painting.None? && r.st.timeLeft == RoundSeconds && r.st.timerActive == st.timerActive
    ensures r.st.imageLoading && r.st.feedback == NoFeedback && r.st.guess == ""
  {
    var signedIn := st.(session := Some(user), loggedIn := true, username := user.username,
                        stats := Mirror(st.stats, reply));
    var load := LoadNewPainting(signedIn);
    Step(load.st, [GetStats(user.id)] + load.effects)
  }

  /** `handleLogout`: the user is forgotten and every shown counter is zeroed.
      The round fields, the clock included, are left as they were. */
  function HandleLogout(st: State): (r: State)
    ensures r.session.None? && !r.loggedIn && r.username == ""
    ensures r.stats == ZeroStats
    ensures r.painting == st.painting && r.timeLeft == st.timeLeft && r.timerActive == st.timerActive
    ensures r.guess == st.guess && r.feedback == st.feedback && r.imageLoading == st.imageLoading
  {
    st.(session := None, loggedIn := false, username := "", stats := ZeroStats)
  }

  /** The two mount effects in declaration order: a stored user is restored
      (stats read, painting requested), then a painting is requested
      unconditionally, so a returning user triggers two fetches. */
  function Mount(stored: Option<AuthUser>, reply: Option<GameStats>): (r: Step)
    ensures r.effects == if stored.Some? then [GetStats(stored.value.id), FetchPainting, FetchPainting] else [FetchPainting]
    ensures r.st.session == stored && r.st.loggedIn == stored.Some?
    ensures !r.st.timerActive && r.st.imageLoading && r.st.timeLeft == RoundSeconds
    ensures r.st.stats == (if stored.Some? then Mirror(ZeroStats, reply) else ZeroStats)
    ensures r.st.username == (if stored.Some? then stored.value.username else "")
    ensures r.st.painting.None? && r.st.guess == "" && r.st.feedback == NoFeedback
    ensures Inv(r.st)
  {
    var restored := match stored
      case None => Step(Initial, [])
      case Some(u) =>
        var signedIn := Initial.(session := Some(u), loggedIn := true, username := u.username,
                                 stats := Mirror(Initial.stats, reply));
        var load := LoadNewPainting(signedIn);
        Step(load.st, [GetStats(u.id)] + load.effects);
    var load := LoadNewPainting(restored.st);
    Step(load.st, restored.effects + load.effects)
  }

  /** The events the component reacts to, each carrying the replies of the
      remote calls it awaits. */
  datatype Event =
    | NextPainting
    | PaintingFetched(fetched: Option<Painting>, reply: Option<GameStats>)
    | ImageLoaded
    | SecondElapsed
    | TimerEffectRan(reply: Option<GameStats>)
    | TimeUpSignalled(reply: Option<GameStats>)
    | GuessEdited(text: string)
    | GuessSubmitted(reply: Option<GameStats>)
    | FeedbackExpired
    | LoggedIn(user: AuthUser, reply: Option<GameStats>)
    | LoggedOut

  /** One event. */
  function Apply(st: State, e: Event): Step {
    match e
    case NextPainting => LoadNewPainting(st)
    case PaintingFetched(p, reply) => ReceivePainting(st, p, reply)
    case ImageLoaded => Step(HandleImageLoad(st), [])
    case SecondElapsed => Step(TimerTick(st), [])
    case TimerEffectRan(reply) => RunTimerEffect(st, reply)
    case TimeUpSignalled(reply) => HandleTimeUp(st, reply)
    case GuessEdited(text) => Step(SetGuess(st, text), [])
    case GuessSubmitted(reply) => HandleGuess(st, reply)
    case FeedbackExpired => Step(ClearFeedback(st), [])
    case LoggedIn(u, reply) => HandleLogin(st, u, reply)
    case LoggedOut => Step(HandleLogout(st), [])
  }

  /** A sequence of events, with all the calls they issued in order. */
  function Run(st: State, events: seq<Event>): Step
    decreases |events|
  {
    if |events| == 0 then Step(st, [])
    else
      var first := Apply(st, events[0]);
      var rest := Run(first.st, events[1..]);
      Step(rest.st, first.effects + rest.effects)
  }

  /** No event takes the clock outside [0, 30], and only a running clock loses
      time, one second per event. */
  lemma ApplyKeepsClock(st: State, e: Event)
    requires Inv(st)
    ensures Inv(Apply(st, e).st)
    ensures Apply(st, e).st.timeLeft < st.timeLeft ==>
              st.timerActive && Apply(st, e).st.timeLeft == st.timeLeft - 1
  {
  }

  /** The clock invariant holds along any run. */
  lemma {:induction false} RunKeepsClock(st: State, events: seq<Event>)
    requires Inv(st)
    ensures Inv(Run(st, events).st)
    decreases |events|
  {
    if |events| > 0 {
      ApplyKeepsClock(st, events[0]);
      RunKeepsClock(Apply(st, events[0]).st, events[1..]);
    }
  }

  /** Every event issues at most one stats update. */
  lemma ApplyUpdatesAtMostOnce(st: State, e: Event)
    ensures Updates(Apply(st, e).effects) <= 1
  {
  }

  /** `n` elapsed seconds. */
  function Ticks(st: State, n: nat): State
    decreases n
  {
    if n == 0 then st else Ticks(TimerTick(st), n - 1)
  }

  /** A running clock loses one second per tick and stops at zero. */
  lemma {:induction false} TicksCountDown(st: State, n: nat)
    requires st.timerActive && st.timeLeft >= 0
    ensures Ticks(st, n).timeLeft == if n <= st.timeLeft then st.timeLeft - n else 0
    ensures Ticks(st, n).timerActive
    decreases n
  {
    if n > 0 {
      TicksCountDown(TimerTick(st), n - 1);
    }
  }

  /** From a fresh round, the clock first reads zero on the thirtieth tick:
      before that it is positive and the timer effect only schedules the next
      tick. */
  lemma ThirtyTicksEndRound(st: State, reply: Option<GameStats>)
    requires st.timerActive && st.timeLeft == RoundSeconds
    ensures forall n: nat :: n < RoundSeconds ==>
              Ticks(st, n).timeLeft > 0 && RunTimerEffect(Ticks(st, n), reply) == Step(Ticks(st, n), [])
    ensures Ticks(st, RoundSeconds).timeLeft == 0
  {
    forall n: nat | n < RoundSeconds
      ensures Ticks(st, n).timeLeft > 0 && RunTimerEffect(Ticks(st, n), reply) == Step(Ticks(st, n), [])
    {
      TicksCountDown(st, n);
    }
    TicksCountDown(st, RoundSeconds);
  }

  /** After a correct guess the round is over for input: the box is disabled,
      "Next Painting" is offered, the clock no longer moves and further
      submissions are ignored. */
  lemma CorrectGuessResolves(st: State, reply: Option<GameStats>)
    requires !GuessIgnored(st) && GuessMatches(st.guess, st.painting.value)
    ensures var s := HandleGuess(st, reply).st;
            InputDisabled(s) && ShowNext(s) && TimerTick(s) == s
            && forall reply' :: HandleGuess(s, reply') == Step(s, [])
  {
  }

  /** Matching is case-insensitive and exact: "CLAUDE MONET" and "Claude
      Monet" are accepted for Claude Monet, "monet" is not; "van gogh" is
      rejected for Vincent van Gogh. */
  lemma MatchingExamples()
    ensures GuessMatches("CLAUDE MONET", Painting("Water Lilies", "Claude Monet", "", None))
    ensures GuessMatches("Claude Monet", Painting("Water Lilies", "Claude Monet", "", None))
    ensures !GuessMatches("monet", Painting("Water Lilies", "Claude Monet", "", None))
    ensures !GuessMatches("van gogh", Painting("The Starry Night", "Vincent van Gogh", "", None))
    ensures !GuessMatches("Claude Monet ", Painting("Water Lilies", "Claude Monet", "", None))
  {
    Text.SameIgnoringCaseIff("CLAUDE MONET", "Claude Monet");
    Text.SameIgnoringCaseIff("monet", "Claude Monet");
    Text.SameIgnoringCaseIff("van gogh", "Vincent van Gogh");
    Text.SameIgnoringCaseIff("Claude Monet ", "Claude Monet");
  }

  /** Finding, as written: when the clock reaches zero with a painting shown
      and a user signed in, the time-up path runs three times, each issuing a
      non-correct stats update: once from the `Timer` child's effect, once
      from this component's timer effect in the same commit, and once more
      when that effect re-runs because `isTimerActive` flipped. */
  lemma TimeoutIssuesThreeUpdates(st: State)
    requires st.timeLeft == 0 && st.timerActive && st.painting.Some? && st.session.Some?
    ensures var fromTimer := HandleTimeUp(st, None);
            var sameCommit := RunTimerEffect(fromTimer.st, None);
            var rerun := RunTimerEffect(sameCommit.st, None);
            && TimerEffectRerun(st, sameCommit.st)
            && fromTimer.effects + sameCommit.effects + rerun.effects
               == [UpdateStats(st.session.value.id, false), UpdateStats(st.session.value.id, false),
                   UpdateStats(st.session.value.id, false)]
  {
  }

  /** Corrected time-up: a handler that only resolves a round whose clock is
      still running. */
  function ResolveTimeUp(st: State, reply: Option<GameStats>): (r: Step)
    ensures !r.st.timerActive
    ensures !st.timerActive ==> r == Step(st, [])
    ensures st.timerActive ==> r == HandleTimeUp(st, reply)
  {
    if st.timerActive then HandleTimeUp(st, reply) else Step(st, [])
  }

  /** `n` calls of the corrected time-up handler in a row. */
  function RepeatResolveTimeUp(st: State, replies: seq<Option<GameStats>>): Step
    decreases |replies|
  {
    if |replies| == 0 then Step(st, [])
    else
      var first := ResolveTimeUp(st, replies[0]);
      var rest := RepeatResolveTimeUp(first.st, replies[1..]);
      Step(rest.st, first.effects + rest.effects)
  }

  /** However often the corrected handler fires, at most one stats update is
      issued for the round. */
  lemma {:induction false} ResolveTimeUpOnce(st: State, replies: seq<Option<GameStats>>)
    ensures Updates(RepeatResolveTimeUp(st, replies).effects) <= 1
    ensures !st.timerActive ==> RepeatResolveTimeUp(st, replies).effects == []
    decreases |replies|
  {
    if |replies| > 0 {
      var first := ResolveTimeUp(st, replies[0]);
      ResolveTimeUpOnce(first.st, replies[1..]);
      UpdatesAppend(first.effects, RepeatResolveTimeUp(first.st, replies[1..]).effects);
    }
  }

  /** Counting updates distributes over concatenation. */
  lemma {:induction false} UpdatesAppend(a: seq<Effect>, b: seq<Effect>)
    ensures Updates(a + b) == Updates(a) + Updates(b)
    decreases |a|
  {
    if |a| > 0 {
      assert (a + b)[1..] == a[1..] + b;
      UpdatesAppend(a[1..], b);
    } else {
      assert a + b == b;
    }
  }

  /** Finding, as written: a wrong guess followed within two seconds by the
      right one leaves the round stuck. The pending timeout clears the
      `correct` feedback, so "Next Painting" disappears while the clock is
      stopped above zero; ticks and guesses then change nothing. */
  lemma LateClearStrandsRound(st: State, wrong: string, reply1: Option<GameStats>, reply2: Option<GameStats>)
    requires st.painting.Some? && st.timerActive && st.timeLeft > 0
    requires !Text.IsBlank(wrong) && !GuessMatches(wrong, st.painting.value)
    requires !Text.IsBlank(st.painting.value.artist)
    ensures var afterWrong := HandleGuess(st.(guess := wrong), reply1).st;
            var afterRight := HandleGuess(SetGuess(afterWrong, st.painting.value.artist), reply2).st;
            var cleared := ClearFeedback(afterRight);
            && afterRight.feedback == Correct
            && !ShowNext(cleared) && !cleared.timerActive && cleared.timeLeft > 0
            && TimerTick(cleared) == cleared
            && RunTimerEffect(cleared, None) == Step(cleared, [])
            && forall g, r :: HandleGuess(SetGuess(cleared, g), r) == Step(SetGuess(cleared, g), [])
  {
    Text.SameIgnoringCaseIff(st.painting.value.artist, st.painting.value.artist);
  }

  /** Corrected clear: the timeout only removes the wrong-guess message. */
  function ClearWrongGuessFeedback(st: State): (r: State)
    ensures st.feedback == WrongGuess ==> r.feedback == NoFeedback
    ensures st.feedback != WrongGuess ==> r == st
    ensures r.(feedback := st.feedback) == st
  {
    if st.feedback == WrongGuess then st.(feedback := NoFeedback) else st
  }

  /** With the corrected clear, a resolved round keeps offering "Next Painting". */
  lemma CorrectedClearKeepsNext(st: State)
    requires ShowNext(st)
    ensures ShowNext(ClearWrongGuessFeedback(st))
  {
  }
}

=== FILE: scenarios.dfy ===
/** Whole-game consequences that need more than one component: the round
    state machine fed with the stats service's replies, the sign-in form fed
    with the account table's answers, and the two timers together. */
module Scenarios {
  import opened Types
  import RemoteStats
  import Accounts
  import Round
  import TimerSound
  import LoginForm
  import Text

  /** A signed-in player with a shown painting and a running clock. */
  predicate Playing(st: Round.State, table: seq<RemoteStats.StatsRow>) {
    && st.session.Some? && st.painting.Some? && st.timerActive
    && RemoteStats.FetchRow(table, st.session.value.id).Some?
  }

  /** The service's row stays readable after an update of it. */
  lemma UpdateKeepsRow(table: seq<RemoteStats.StatsRow>, id: string, ok: bool)
    requires RemoteStats.FetchRow(table, id).Some?
    ensures RemoteStats.FetchRow(RemoteStats.UpdateUserStats(table, id, ok).table, id).Some?
  {
    RemoteStats.UpdateThenRead(table, id, ok);
  }

  /** A wrong guess then the right one, each sent to the service: the shown
      score rises by exactly 10, the shown guesses by two, one of them wrong,
      and the round ends resolved as correct. */
  lemma WrongThenRight(st: Round.State, table: seq<RemoteStats.StatsRow>, wrong: string)
    requires Playing(st, table) && st.timeLeft > 0
    requires !Text.IsBlank(wrong) && !Round.GuessMatches(wrong, st.painting.value)
    requires !Text.IsBlank(st.painting.value.artist)
    ensures var id := st.session.value.id;
            var before := RemoteStats.GetUserStats(table, id).value;
            var r1 := RemoteStats.UpdateUserStats(table, id, false);
            var s1 := Round.HandleGuess(st.(guess := wrong), r1.stats).st;
            var r2 := RemoteStats.UpdateUserStats(r1.table, id, true);
            var s2 := Round.HandleGuess(Round.SetGuess(s1, st.painting.value.artist), r2.stats).st;
            && s1.feedback == Round.WrongGuess && s1.guess == ""
            && s2.feedback == Round.Correct && !s2.timerActive
            && s2.stats.score == before.score + PointsPerCorrectGuess
            && s2.stats.totalGuesses == before.totalGuesses + 2
            && s2.stats.wrongGuesses == before.wrongGuesses + 1
            && s2.stats.correctGuesses == before.correctGuesses + 1
  {
    var id := st.session.value.id;
    Text.SameIgnoringCaseIff(st.painting.value.artist, st.painting.value.artist);
    UpdateKeepsRow(table, id, false);
  }

  /** The example round: "van gogh" is wrong for Vincent van Gogh, the full
      name is right, and the score grows by 10. */
  lemma StarryNight(st: Round.State, table: seq<RemoteStats.StatsRow>)
    requires Playing(st, table) && st.timeLeft > 0
    requires st.painting.value == Painting("The Starry Night", "Vincent van Gogh", "starry.jpg", None)
    ensures var id := st.session.value.id;
            var r1 := RemoteStats.UpdateUserStats(table, id, false);
            var s1 := Round.HandleGuess(st.(guess := "van gogh"), r1.stats).st;
            var r2 := RemoteStats.UpdateUserStats(r1.table, id, true);
            var s2 := Round.HandleGuess(Round.SetGuess(s1, "Vincent van Gogh"), r2.stats).st;
            s1.feedback == Round.WrongGuess
            && s2.feedback == Round.Correct
            && s2.stats.score == RemoteStats.GetUserStats(table, id).value.score + PointsPerCorrectGuess
  {
    Round.MatchingExamples();
    assert !Text.IsBlank("van gogh") by { assert !Text.IsWhitespace("van gogh"[0]); }
    assert !Text.IsBlank("Vincent van Gogh") by { assert !Text.IsWhitespace("Vincent van Gogh"[0]); }
    WrongThenRight(st, table, "van gogh");
  }

  /** One update recorded by the service, seen through the next read. */
  lemma ReadAfterUpdate(table: seq<RemoteStats.StatsRow>, id: string, ok: bool)
    requires RemoteStats.FetchRow(table, id).Some?
    ensures var t := RemoteStats.UpdateUserStats(table, id, ok).table;
            var before := RemoteStats.GetUserStats(table, id).value;
            && RemoteStats.GetUserStats(t, id).Some?
            && RemoteStats.GetUserStats(t, id).value.totalGuesses == before.totalGuesses + 1
            && RemoteStats.GetUserStats(t, id).value.wrongGuesses == before.wrongGuesses + (if ok then 0 else 1)
  {
    RemoteStats.UpdateThenRead(table, id, ok);
  }

  /** Finding, end to end: when the clock runs out, the `Timer` child reports
      time-up whatever its activity flag, and the round's own effect runs the
      handler twice more (`Round.TimeoutIssuesThreeUpdates`). If the service
      handles the three updates one after another, each reading the row the
      previous one wrote, it records three wrong guesses for one unanswered
      painting. The calls are not awaited, so their reads can also overlap;
      `OverlappingUpdatesLoseOne` shows what is then recorded. */
  lemma TimeoutRecordsThreeWrongGuesses(st: Round.State, table: seq<RemoteStats.StatsRow>)
    requires Playing(st, table) && st.timeLeft == 0
    ensures TimerSound.CallTimeUp in TimerSound.Decide(st.timeLeft, !st.imageLoading)
    ensures var id := st.session.value.id;
            var t1 := RemoteStats.UpdateUserStats(table, id, false).table;
            var t2 := RemoteStats.UpdateUserStats(t1, id, false).table;
            var t3 := RemoteStats.UpdateUserStats(t2, id, false).table;
            && RemoteStats.GetUserStats(t3, id).Some?
            && RemoteStats.GetUserStats(t3, id).value.wrongGuesses == RemoteStats.GetUserStats(table, id).value.wrongGuesses + 3
  {
    var id := st.session.value.id;
    var t1 := RemoteStats.UpdateUserStats(table, id, false).table;
    var t2 := RemoteStats.UpdateUserStats(t1, id, false).table;
    ReadAfterUpdate(table, id, false);
    ReadAfterUpdate(t1, id, false);
    ReadAfterUpdate(t2, id, false);
  }

  /** A first-time player: login finds no account, registration creates one
      and the form hands the new user on after exactly two calls. */
  lemma FirstVisitRegisters(db: Accounts.Db, f: LoginForm.Form, passwordHash: string, id: string,
                            verify: (string, string) -> bool)
    requires !LoginForm.MissingField(f)
    requires Accounts.Named(db.users, f.username) == []
    ensures var login := Accounts.LoginUser(db.users, f.username, f.password, verify);
            var reg := Accounts.RegisterUser(db, f.username, passwordHash, Some(id), true);
            var r := LoginForm.HandleSubmit(f, login, reg.user);
            && r.calls == [LoginForm.LoginCall(f.username, f.password), LoginForm.RegisterCall(f.username, f.password)]
            && r.signedIn == Some(AuthUser(id, f.username))
            && r.form.error == ""
  {
  }

  /** The other extreme of the same finding: two `updateUserStats` calls whose
      reads both happen before either write each compute their counters from
      the same row, so the second write overwrites the first and only one
      wrong guess is recorded. */
  lemma OverlappingUpdatesLoseOne(table: seq<RemoteStats.StatsRow>, id: string)
    requires RemoteStats.FetchRow(table, id).Some?
    ensures var upd := RemoteStats.GuessCounters(RemoteStats.FetchRow(table, id).value, false);
            var t := RemoteStats.UpdateWhere(RemoteStats.UpdateWhere(table, id, upd), id, upd);
            && RemoteStats.GetUserStats(t, id).Some?
            && RemoteStats.GetUserStats(t, id).value.wrongGuesses == RemoteStats.GetUserStats(table, id).value.wrongGuesses + 1
  {
    var upd := RemoteStats.GuessCounters(RemoteStats.FetchRow(table, id).value, false);
    var once := RemoteStats.UpdateWhere(table, id, upd);
    var twice := RemoteStats.UpdateWhere(once, id, upd);
    assert twice == once;
    RemoteStats.UpdateKeepsSingleRow(table, id, upd);
  }
}

=== FILE: sounds.dfy ===
/** The sound manager singleton (src/utils/sounds.ts) as a value: one shared
    audio element per sound effect, the mute flag and the tick-loop reference.
    An audio element is abstracted to whether it is playing, its playback
    position and its volume; actual playback is not modelled. */
module Sounds {
  import opened Types

  /** The keys of `SOUND_EFFECTS`. */
  datatype Sound = Tick | LastTick | Wrong | Correct | Start | GameOver

  /** An audio element as far as the manager touches it. */
  datatype Audio = Audio(playing: bool, currentTime: real, volume: real, loop: bool)

  /** The manager's fields. `tickLoop` names the shared element it refers to. */
  datatype Manager = Manager(sounds: map<Sound, Audio>, muted: bool, tickLoop: Option<Sound>)

  /** A `playSound` call's new manager and whether it started a fresh,
      unshared element (the last-tick sound). */
  datatype Played = Played(manager: Manager, spawned: bool)

  /** A `toggleMute` call's new manager and the mute flag it returns. */
  datatype Toggled = Toggled(manager: Manager, muted: bool)

  /** The volume every element is created with. */
  const InitialVolume: real := 0.3

  /** Every sound has its element, and the tick loop can only refer to the tick sound. */
  predicate Valid(m: Manager) {
    && (forall s: Sound :: s in m.sounds)
    && (m.tickLoop.Some? ==> m.tickLoop.value == Tick)
  }

  /** An element paused and rewound. */
  function Stopped(a: Audio): Audio {
    a.(playing := false, currentTime := 0.0)
  }

  /** An element rewound and playing. */
  function Restarted(a: Audio): Audio {
    a.(playing := true, currentTime := 0.0)
  }

  /** The entries of `SOUND_EFFECTS`. */
  const AllSounds: set<Sound> := {Tick, LastTick, Wrong, Correct, Start, GameOver}

  /** The six keys are all the sounds there are. */
  lemma EverySoundListed()
    ensures forall s: Sound :: s in AllSounds
  {
    forall s: Sound ensures s in AllSounds {
      match s
      case Tick => case LastTick => case Wrong => case Correct => case Start => case GameOver =>
    }
  }

  /** The constructor: every element idle at 30% volume, only the tick sound
      looping, and the tick loop already pointing at it. */
  function Construct(): (m: Manager)
    ensures Valid(m) && !m.muted && m.tickLoop == Some(Tick)
    ensures forall s: Sound :: !m.sounds[s].playing && m.sounds[s].volume == InitialVolume
    ensures forall s: Sound :: m.sounds[s].loop <==> s == Tick
  {
    EverySoundListed();
    Manager(map s | s in AllSounds :: Audio(false, 0.0, InitialVolume, s == Tick), false, Some(Tick))
  }

  /** `stopTickLoop`: the element it referred to is paused and rewound, and the
      reference is dropped. */
  function StopTickLoop(m: Manager): (r: Manager)
    ensures r.tickLoop.None? && r.muted == m.muted
    ensures r.sounds.Keys == m.sounds.Keys
    ensures m.tickLoop.Some? && m.tickLoop.value in m.sounds ==>
              r.sounds[m.tickLoop.value] == Stopped(m.sounds[m.tickLoop.value])
    ensures forall s :: s in m.sounds && m.tickLoop != Some(s) ==> r.sounds[s] == m.sounds[s]
    ensures Valid(m) ==> Valid(r)
  {
    match m.tickLoop
    case None => m
    case Some(t) =>
      if t in m.sounds then Manager(m.sounds[t := Stopped(m.sounds[t])], m.muted, None)
      else m.(tickLoop := None)
  }

  /** `startTickLoop`: nothing while muted; otherwise any running loop is
      stopped and the tick element becomes the loop, rewound and playing. */
  function StartTickLoop(m: Manager): (r: Manager)
    requires Valid(m)
    ensures Valid(r) && r.muted == m.muted
    ensures m.muted ==> r == m
    ensures !m.muted ==> r.tickLoop == Some(Tick) && r.sounds[Tick] == Restarted(m.sounds[Tick])
    ensures !m.muted ==> forall s :: s in m.sounds && s != Tick ==> r.sounds[s] == m.sounds[s]
  {
    if m.muted then m
    else
      var stopped := if m.tickLoop.Some? then StopTickLoop(m) else m;
      Manager(stopped.sounds[Tick := Restarted(stopped.sounds[Tick])], stopped.muted, Some(Tick))
  }

  /** `stopAllSounds`: every element paused and rewound; the reference stays. */
  function StopAllSounds(m: Manager): (r: Manager)
    ensures r.sounds.Keys == m.sounds.Keys
    ensures forall s :: s in m.sounds ==> r.sounds[s] == Stopped(m.sounds[s])
    ensures r.muted == m.muted && r.tickLoop == m.tickLoop
  {
    m.(sounds := map s | s in m.sounds :: Stopped(m.sounds[s]))
  }

  /** `playSound`: nothing while muted. The last-tick sound plays on a fresh
      element and leaves the shared one alone; any other sound rewinds and
      plays its shared element. */
  function PlaySound(m: Manager, s: Sound): (r: Played)
    ensures m.muted || s !in m.sounds ==> r == Played(m, false)
    ensures !m.muted && s == LastTick && s in m.sounds ==> r == Played(m, true)
    ensures !m.muted && s != LastTick && s in m.sounds ==>
              && !r.spawned
              && r.manager.sounds == m.sounds[s := Restarted(m.sounds[s])]
              && r.manager.muted == m.muted && r.manager.tickLoop == m.tickLoop
  {
    if m.muted || s !in m.sounds then Played(m, false)
    else if s == LastTick then Played(m, true)
    else Played(m.(sounds := m.sounds[s := Restarted(m.sounds[s])]), false)
  }

  /** `toggleMute`: flips the flag and returns the new value; muting also
      stops the tick loop. */
  function ToggleMute(m: Manager): (r: Toggled)
    ensures r.muted == !m.muted && r.manager.muted == r.muted
    ensures r.muted ==> r.manager.tickLoop.None?
    ensures r.muted ==> r.manager == StopTickLoop(m.(muted := true))
    ensures Valid(m) && r.muted && m.tickLoop.Some? ==> r.manager.sounds[Tick] == Stopped(m.sounds[Tick])
    ensures !r.muted ==> r.manager == m.(muted := false)
    ensures Valid(m) ==> Valid(r.manager)
  {
    var flipped := m.(muted := !m.muted);
    if flipped.muted && flipped.tickLoop.Some? then Toggled(StopTickLoop(flipped), true)
    else Toggled(flipped, flipped.muted)
  }

  /** `Math.max(0, Math.min(1, v))`. */
  function Clamp(v: real): (c: real)
    ensures 0.0 <= c <= 1.0
    ensures 0.0 <= v <= 1.0 ==> c == v
    ensures v < 0.0 ==> c == 0.0
    ensures v > 1.0 ==> c == 1.0
  {
    if v > 1.0 then 1.0 else if v < 0.0 then 0.0 else v
  }

  /** `setVolume`: every element gets the clamped volume. */
  function SetVolume(m: Manager, v: real): (r: Manager)
    ensures r.sounds.Keys == m.sounds.Keys && r.muted == m.muted && r.tickLoop == m.tickLoop
    ensures forall s :: s in r.sounds ==> r.sounds[s] == m.sounds[s].(volume := Clamp(v))
    ensures forall s :: s in r.sounds ==> 0.0 <= r.sounds[s].volume <= 1.0
  {
    m.(sounds := map s | s in m.sounds :: m.sounds[s].(volume := Clamp(v)))
  }

  /** Toggling twice restores the mute flag and returns the original value. */
  lemma ToggleTwice(m: Manager)
    ensures ToggleMute(ToggleMute(m).manager).muted == m.muted
    ensures ToggleMute(ToggleMute(m).manager).manager.muted == m.muted
  {
  }

  /** Stopping the tick loop twice is the same as stopping it once. */
  lemma StopTickLoopIdempotent(m: Manager)
    ensures StopTickLoop(StopTickLoop(m)) == StopTickLoop(m)
  {
  }

  /** While muted neither sounds nor the tick loop start. */
  lemma MutedIsSilent(m: Manager, s: Sound)
    requires Valid(m) && m.muted
    ensures PlaySound(m, s) == Played(m, false)
    ensures StartTickLoop(m) == m
  {
  }

  /** A muted manager is left exactly as it is, and so plays nothing, whatever
      sound calls and tick-loop starts follow. */
  lemma {:induction false} MutedStaysQuiet(m: Manager, calls: seq<Sound>)
    requires Valid(m) && m.muted
    ensures PlayAll(m, calls) == m
    decreases |calls|
  {
    if |calls| > 0 {
      MutedIsSilent(m, calls[0]);
      MutedStaysQuiet(PlaySound(m, calls[0]).manager, calls[1..]);
    }
  }

  /** A sequence of `playSound` calls with tick-loop starts in between. */
  function PlayAll(m: Manager, calls: seq<Sound>): Manager
    requires Valid(m)
    decreases |calls|
  {
    if |calls| == 0 then m
    else
      var next := if calls[0] == Tick then StartTickLoop(m) else PlaySound(m, calls[0]).manager;
      assert Valid(next);
      PlayAll(next, calls[1..])
  }
}

=== FILE: storage.dfy ===
/** The browser-local account store (src/utils/storage.ts): a list of accounts
    with their counters, and the account currently signed in. The two
    localStorage keys become the two fields of `Store`; JSON encoding is not
    modelled. */
module Storage {
  import opened Types

  /** Everything the module keeps in localStorage. */
  datatype Store = Store(users: seq<UserGameData>, current: Option<User>)

  /** A store update together with the counters the call returns. */
  datatype Written = Written(store: Store, stats: GameStats)

  /** The counters reported when no account is known: all zero. */
  const DefaultStats: GameStats := ZeroStats

  /** No two stored accounts share a username. */
  predicate UniqueNames(users: seq<UserGameData>) {
    forall i, j :: 0 <= i < j < |users| ==> users[i].user.username != users[j].user.username
  }

  /** `users[k]` is the first account named `name`. */
  predicate FirstNamed(users: seq<UserGameData>, name: string, k: int) {
    && 0 <= k < |users|
    && users[k].user.username == name
    && forall j :: 0 <= j < k ==> users[j].user.username != name
  }

  /** `Array.prototype.findIndex` on the username: the position of the first
      account with that name, if any. */
  function FindIndex(users: seq<UserGameData>, name: string): (r: Option<nat>)
    ensures r.Some? ==> FirstNamed(users, name, r.value)
    ensures r.None? <==> forall j :: 0 <= j < |users| ==> users[j].user.username != name
  {
    if |users| == 0 then None
    else if users[0].user.username == name then Some(0)
    else
      match FindIndex(users[1..], name)
      case None => None
      case Some(k) => Some(k + 1)
  }

  /** `Array.prototype.find` on the username. */
  function Find(users: seq<UserGameData>, name: string): (r: Option<UserGameData>)
    ensures r.Some? <==> exists k :: FirstNamed(users, name, k)
    ensures forall k :: FirstNamed(users, name, k) ==> r == Some(users[k])
  {
    match FindIndex(users, name)
    case None => None
    case Some(k) => Some(users[k])
  }

  /** `saveUser`: an upsert keyed by username. The first account with the same
      name is replaced where it stands; otherwise the record is appended. */
  function SaveUser(users: seq<UserGameData>, d: UserGameData): (r: seq<UserGameData>)
    ensures |users| <= |r| <= |users| + 1
    ensures |r| == |users| + 1 <==> forall j :: 0 <= j < |users| ==> users[j].user.username != d.user.username
    ensures Find(r, d.user.username) == Some(d)
    ensures forall k :: FirstNamed(users, d.user.username, k) ==> r[k] == d
    ensures forall j :: 0 <= j < |users| && !FirstNamed(users, d.user.username, j) ==> r[j] == users[j]
  {
    match FindIndex(users, d.user.username)
    case Some(k) =>
      var r := users[k := d];
      assert FirstNamed(r, d.user.username, k);
      r
    case None =>
      var r := users + [d];
      assert FirstNamed(r, d.user.username, |users|);
      r
  }

  /** Saving never introduces a second account with the same name. */
  lemma SaveUserKeepsNamesUnique(users: seq<UserGameData>, d: UserGameData)
    requires UniqueNames(users)
    ensures UniqueNames(SaveUser(users, d))
  {
    var r := SaveUser(users, d);
    forall i, j | 0 <= i < j < |r|
      ensures r[i].user.username != r[j].user.username
    {
      if j == |users| {
        assert r[j] == d;
        assert users[i].user.username != d.user.username;
      } else if r[i] == d || r[j] == d {
        var k := FindIndex(users, d.user.username).value;
        assert r[i] == d ==> i == k;
        assert r[j] == d ==> j == k;
      }
    }
  }

  /** `authenticateUser`: the first account with that name exists and stores
      exactly this password. */
  function Authenticate(s: Store, username: string, password: string): (r: bool)
    ensures r <==> exists k :: FirstNamed(s.users, username, k) && s.users[k].user.password == password
  {
    match Find(s.users, username)
    case Some(d) => d.user.password == password
    case None => false
  }

  /** `getGameStats`: the counters stored for the current account, falling back
      to `DefaultStats` when nobody is signed in or the account is not stored. */
  function GetGameStats(s: Store): (r: GameStats)
    ensures s.current.None? ==> r == DefaultStats
    ensures s.current.Some? ==>
              (forall k :: FirstNamed(s.users, s.current.value.username, k) ==> r == s.users[k].stats)
              && (Find(s.users, s.current.value.username).None? ==> r == DefaultStats)
  {
    match s.current
    case None => DefaultStats
    case Some(u) =>
      match Find(s.users, u.username)
      case Some(d) => d.stats
      case None => DefaultStats
  }

  /** The local counter rule for one judged guess. */
  function CountGuess(stats: GameStats, isCorrect: bool): (r: GameStats)
    ensures r.totalGuesses == stats.totalGuesses + 1
    ensures r.correctGuesses + r.wrongGuesses == stats.correctGuesses + stats.wrongGuesses + 1
    ensures r.correctGuesses == stats.correctGuesses + (if isCorrect then 1 else 0)
    ensures r.score == stats.score + (if isCorrect then PointsPerCorrectGuess else 0)
    ensures r.totalPaintings == stats.totalPaintings && r.rank == stats.rank
  {
    stats.(totalGuesses := stats.totalGuesses + 1,
           correctGuesses := if isCorrect then stats.correctGuesses + 1 else stats.correctGuesses,
           wrongGuesses := if isCorrect then stats.wrongGuesses else stats.wrongGuesses + 1,
           score := if isCorrect then stats.score + PointsPerCorrectGuess else stats.score)
  }

  /** `updateGameStats`: with nobody signed in, nothing is written and the
      default counters come back; otherwise the guess is counted and the
      current account (with its current password) is upserted. */
  function UpdateGameStats(s: Store, isCorrect: bool): (r: Written)
    ensures s.current.None? ==> r == Written(s, DefaultStats)
    ensures s.current.Some? ==>
              && r.stats == CountGuess(GetGameStats(s), isCorrect)
              && r.store.current == s.current
              && r.store.users == SaveUser(s.users, UserGameData(s.current.value, r.stats))
  {
    match s.current
    case None => Written(s, DefaultStats)
    case Some(u) =>
      var next := CountGuess(GetGameStats(s), isCorrect);
      Written(s.(users := SaveUser(s.users, UserGameData(u, next))), next)
  }

  /** `incrementTotalPaintings`: only `totalPaintings` moves, by one. */
  function IncrementTotalPaintings(s: Store): (r: Written)
    ensures s.current.None? ==> r == Written(s, DefaultStats)
    ensures s.current.Some? ==>
              && r.stats == GetGameStats(s).(totalPaintings := GetGameStats(s).totalPaintings + 1)
              && r.store.current == s.current
              && r.store.users == SaveUser(s.users, UserGameData(s.current.value, r.stats))
  {
    match s.current
    case None => Written(s, DefaultStats)
    case Some(u) =>
      var stats := GetGameStats(s);
      var next := stats.(totalPaintings := stats.totalPaintings + 1);
      Written(s.(users := SaveUser(s.users, UserGameData(u, next))), next)
  }

  /** What an update returns is exactly what the next read finds. */
  lemma UpdateThenRead(s: Store, isCorrect: bool)
    requires s.current.Some?
    ensures GetGameStats(UpdateGameStats(s, isCorrect).store) == UpdateGameStats(s, isCorrect).stats
  {
  }

  /** The same holds for the paintings counter. */
  lemma IncrementThenRead(s: Store)
    requires s.current.Some?
    ensures GetGameStats(IncrementTotalPaintings(s).store) == IncrementTotalPaintings(s).stats
  {
  }

  /** Counting a guess keeps the guesses attributed to neither outcome fixed
      and never lowers the score. */
  lemma CountGuessConserves(stats: GameStats, isCorrect: bool)
    ensures UnattributedGuesses(CountGuess(stats, isCorrect)) == UnattributedGuesses(stats)
    ensures CountGuess(stats, isCorrect).score >= stats.score
  {
  }

  /** A sequence of updates for the signed-in user keeps the stored score
      non-decreasing and the unattributed-guess count fixed. */
  lemma {:induction false} UpdatesConserve(s: Store, outcomes: seq<bool>)
    requires s.current.Some?
    ensures UnattributedGuesses(GetGameStats(ApplyGuesses(s, outcomes))) == UnattributedGuesses(GetGameStats(s))
    ensures GetGameStats(ApplyGuesses(s, outcomes)).score >= GetGameStats(s).score
    ensures ApplyGuesses(s, outcomes).current == s.current
    decreases |outcomes|
  {
    if |outcomes| > 0 {
      var s1 := UpdateGameStats(s, outcomes[0]).store;
      UpdateThenRead(s, outcomes[0]);
      CountGuessConserves(GetGameStats(s), outcomes[0]);
      UpdatesConserve(s1, outcomes[1..]);
    }
  }

  /** Applies `updateGameStats` once per judged guess, in order. */
  function ApplyGuesses(s: Store, outcomes: seq<bool>): Store
    decreases |outcomes|
  {
    if |outcomes| == 0 then s else ApplyGuesses(UpdateGameStats(s, outcomes[0]).store, outcomes[1..])
  }

  /** `setCurrentUser`: signs a user in without touching the account list. */
  function SetCurrentUser(s: Store, u: User): (r: Store)
    ensures r.users == s.users && r.current == Some(u)
  {
    s.(current := Some(u))
  }

  /** `clearCurrentUser`: after it, every counter read yields the defaults. */
  function ClearCurrentUser(s: Store): (r: Store)
    ensures r.users == s.users && r.current.None?
    ensures GetGameStats(r) == DefaultStats
  {
    s.(current := None)
  }
}

=== FILE: text.dfy ===
/** The two string operations the game relies on: JavaScript's `trim` (used to
    reject blank input) and lower-casing (used to compare a guess with the
    artist's name). */
module Text {

  /** The characters `String.prototype.trim` removes: ECMAScript WhiteSpace
      (tab, vertical tab, form feed, space, no-break space, byte-order mark and
      the Unicode space separators) and LineTerminator. */
  predicate IsWhitespace(c: char) {
    || c == '\t' || c == '\U{000B}' || c == '\U{000C}' || c == ' ' || c == '\U{00A0}'
    || c == '\U{FEFF}' || c == '\U{1680}' || ('\U{2000}' <= c <= '\U{200A}')
    || c == '\U{202F}' || c == '\U{205F}' || c == '\U{3000}'
    || c == '\n' || c == '\r' || c == '\U{2028}' || c == '\U{2029}'
  }

  /** Every character is whitespace: the string trims to nothing. */
  predicate IsBlank(s: string) {
    forall i :: 0 <= i < |s| ==> IsWhitespace(s[i])
  }

  /** Drops leading whitespace. */
  function TrimStart(s: string): (r: string)
    ensures |r| <= |s|
    ensures r == s[|s| - |r|..]
    ensures IsBlank(s[..|s| - |r|])
    ensures r == [] || !IsWhitespace(r[0])
  {
    if |s| > 0 && IsWhitespace(s[0]) then
      var r := TrimStart(s[1..]);
      assert s[..|s| - |r|] == [s[0]] + s[1..][..|s| - 1 - |r|];
      r
    else s
  }

  /** Drops trailing whitespace. */
  function TrimEnd(s: string): (r: string)
    ensures |r| <= |s|
    ensures r == s[..|r|]
    ensures IsBlank(s[|r|..])
    ensures r == [] || !IsWhitespace(r[|r| - 1])
  {
    if |s| > 0 && IsWhitespace(s[|s| - 1]) then
      var r := TrimEnd(s[..|s| - 1]);
      assert s[|r|..] == s[..|s| - 1][|r|..] + [s[|s| - 1]];
      r
    else s
  }

  /** `r` is `s` less its first `i` characters and everything after
      `i + |r|`, all of them whitespace. */
  predicate Strips(s: string, i: nat, r: string) {
    && i + |r| <= |s|
    && r == s[i..i + |r|]
    && IsBlank(s[..i])
    && IsBlank(s[i + |r|..])
  }

  /** `s.trim()`: whitespace removed from both ends. */
  function Trim(s: string): (r: string)
    ensures |r| <= |s|
    ensures r == [] || (!IsWhitespace(r[0]) && !IsWhitespace(r[|r| - 1]))
    ensures exists i :: Strips(s, i, r)
  {
    var t := TrimStart(s);
    var r := TrimEnd(t);
    StripsBothEnds(s, |s| - |t|, t, r);
    r
  }

  /** Stripping a blank prefix and then a blank suffix strips both ends. */
  lemma StripsBothEnds(s: string, i: nat, t: string, r: string)
    requires i <= |s| && t == s[i..] && IsBlank(s[..i])
    requires |r| <= |t| && r == t[..|r|] && IsBlank(t[|r|..])
    ensures Strips(s, i, r)
    ensures r == [] || r[0] == t[0]
  {
    assert t[|r|..] == s[i + |r|..];
  }

  /** The source's `!s.trim()` test: the trimmed string is empty exactly when
      every character of `s` is whitespace. */
  lemma {:induction false} TrimEmptyIffBlank(s: string)
    ensures Trim(s) == [] <==> IsBlank(s)
  {
    var t := TrimStart(s);
    if Trim(s) == [] {
      if |t| > 0 {
        assert false;
      }
      forall i | 0 <= i < |s| ensures IsWhitespace(s[i]) {
        assert s[i] == s[..|s| - |t|][i];
      }
    } else {
      var e := Trim(s);
      assert !IsWhitespace(e[|e| - 1]);
      assert e[|e| - 1] == t[|e| - 1];
      assert t[|e| - 1] == s[|s| - |t| + |e| - 1];
    }
  }

  /** The source's `!s.trim()`, decided by trimming. */
  predicate TrimsToNothing(s: string): (r: bool)
    ensures r <==> IsBlank(s)
  {
    TrimEmptyIffBlank(s);
    Trim(s) == []
  }

  /** ASCII lower-casing of one character. */
  function LowerChar(c: char): char {
    if 'A' <= c <= 'Z' then (c as int + 32) as char else c
  }

  /** `s.toLowerCase()`, restricted to the ASCII letters. */
  function Lower(s: string): (r: string)
    ensures |r| == |s|
    ensures forall i :: 0 <= i < |s| ==> r[i] == LowerChar(s[i])
  {
    seq(|s|, i requires 0 <= i < |s| => LowerChar(s[i]))
  }

  /** The guess test: whole-string equality after lower-casing both sides. */
  predicate SameIgnoringCase(a: string, b: string) {
    Lower(a) == Lower(b)
  }

  /** Two strings match ignoring case exactly when they have the same length
      and agree character by character up to case: no prefix, suffix or
      partial name is ever accepted. */
  lemma SameIgnoringCaseIff(a: string, b: string)
    ensures SameIgnoringCase(a, b) <==>
              |a| == |b| && forall i :: 0 <= i < |a| ==> LowerChar(a[i]) == LowerChar(b[i])
  {
    if |a| == |b| && forall i :: 0 <= i < |a| ==> LowerChar(a[i]) == LowerChar(b[i]) {
      assert forall i :: 0 <= i < |a| ==> Lower(a)[i] == Lower(b)[i];
    }
  }
}

=== FILE: timer.dfy ===
/** The sound decisions of the `Timer` component (src/components/Timer.tsx):
    each time its `seconds`, `isActive` or `onTimeUp` prop changes, its effect
    picks which sound-manager calls to make and whether to report time-up.
    `onTimeUp` is the game's `handleTimeUp`, which gets a new identity whenever
    the painting changes, and the game passes `isActive` as "the image has
    loaded", not as its own timer flag, so the effect still reports time-up at
    zero after the game has stopped its clock. The effect's cleanup, run
    before the next effect, is modelled too. */
module TimerSound {
  import Sounds
  import opened Types

  /** A call the effect makes. */
  datatype Action = StartTickLoop | StopTickLoop | PlayLastTick | CallTimeUp

  /** Seconds at which the continuous tick starts. */
  const FullTime: int := 30

  /** Seconds from which the last-tick sound replaces the loop. */
  const LastSeconds: int := 10

  /** The effect body. Reporting time-up depends only on the clock reading
      zero, whether or not the timer is active. */
  function Decide(seconds: int, isActive: bool): (r: set<Action>)
    ensures StartTickLoop in r <==> isActive && seconds == FullTime
    ensures StopTickLoop in r <==> !isActive || seconds <= LastSeconds
    ensures PlayLastTick in r <==> isActive && 0 < seconds <= LastSeconds
    ensures CallTimeUp in r <==> seconds == 0
  {
    var sound :=
      if isActive then
        if seconds == FullTime then {StartTickLoop}
        else if seconds <= LastSeconds then {StopTickLoop} + (if seconds > 0 then {PlayLastTick} else {})
        else {}
      else {StopTickLoop};
    sound + (if seconds == 0 then {CallTimeUp} else {})
  }

  /** The cleanup the effect returns: an inactive run stops the loop again. */
  function Cleanup(isActive: bool): (r: set<Action>)
    ensures r == {} <==> isActive
    ensures r <= {StopTickLoop}
  {
    if !isActive then {StopTickLoop} else {}
  }

  /** Mid-round (between the last ten seconds and the start) an active timer is silent. */
  lemma MidRoundSilent(seconds: int)
    requires LastSeconds < seconds < FullTime
    ensures Decide(seconds, true) == {}
  {
    assert StartTickLoop !in Decide(seconds, true);
    assert StopTickLoop !in Decide(seconds, true);
    assert PlayLastTick !in Decide(seconds, true);
    assert CallTimeUp !in Decide(seconds, true);
  }

  /** The loop is never started and stopped by the same run. */
  lemma StartAndStopExclusive(seconds: int, isActive: bool)
    ensures !(StartTickLoop in Decide(seconds, isActive) && StopTickLoop in Decide(seconds, isActive))
  {
  }

  /** The sound-manager calls of one run, in the order the effect makes them. */
  function Perform(m: Sounds.Manager, seconds: int, isActive: bool): (r: Sounds.Manager)
    requires Sounds.Valid(m)
    ensures Sounds.Valid(r)
    ensures (!isActive || seconds <= LastSeconds) ==> r.tickLoop.None?
    ensures (!isActive || seconds <= LastSeconds) ==>
              r.sounds[Sounds.Tick] == (if m.tickLoop.Some? then Sounds.Stopped(m.sounds[Sounds.Tick]) else m.sounds[Sounds.Tick])
    ensures isActive && seconds == FullTime && !m.muted ==> r.tickLoop == Some(Sounds.Tick)
    ensures isActive && seconds == FullTime && !m.muted ==>
              r.sounds[Sounds.Tick].playing && r.sounds[Sounds.Tick].currentTime == 0.0
    ensures forall s :: s in m.sounds && s != Sounds.Tick ==> r.sounds[s] == m.sounds[s]
    ensures isActive && LastSeconds < seconds < FullTime ==> r == m
  {
    if isActive then
      if seconds == FullTime then Sounds.StartTickLoop(m)
      else if seconds <= LastSeconds then
        var stopped := Sounds.StopTickLoop(m);
        if seconds > 0 then Sounds.PlaySound(stopped, Sounds.LastTick).manager else stopped
      else m
    else Sounds.StopTickLoop(m)
  }
}

=== FILE: types.dfy ===
/** The records shared by the game, the local user store and the remote stats
    service (src/types.ts), plus the optional-value wrapper that stands for the
    source's `null` results. */
module Types {

  /** A value that may be missing: the source's `T | null`. */
  datatype Option<+T> = None | Some(value: T) {

    /** The value, or `default` when missing. */
    function GetOr(default: T): T {
      match this
      case Some(v) => v
      case None => default
    }
  }

  /** Per-user cumulative counters and rank (src/types.ts). */
  datatype GameStats = GameStats(
    totalPaintings: int,
    totalGuesses: int,
    correctGuesses: int,
    wrongGuesses: int,
    score: int,
    rank: int)

  /** The all-zero record used whenever no user is known. */
  const ZeroStats: GameStats := GameStats(0, 0, 0, 0, 0, 0)

  /** One painting supplied by the painting source; the year is optional. */
  datatype Painting = Painting(title: string, artist: string, imageUrl: string, year: Option<string>)

  /** A locally stored account: name and clear-text password. */
  datatype User = User(username: string, password: string)

  /** A locally stored account together with its counters. */
  datatype UserGameData = UserGameData(user: User, stats: GameStats)

  /** The identity the remote service hands back after login or registration. */
  datatype AuthUser = AuthUser(id: string, username: string)

  /** Points a correct guess is worth, locally and remotely. */
  const PointsPerCorrectGuess: int := 10

  /** Guesses counted but attributed to neither outcome: the quantity every
      counter update keeps fixed. */
  function UnattributedGuesses(s: GameStats): int {
    s.totalGuesses - (s.correctGuesses + s.wrongGuesses)
  }
}
